=== FILE: README.md ===
# hd.c: the AT hard-disk driver as a state machine

This project models the request/completion engine of the Linux 0.11 AT
hard-disk driver (`kernel/blk_drv/hd.c`). The model covers:

- the dispatcher `do_hd_request`;
- the completion handlers `read_intr`, `write_intr` and `recal_intr`;
- the error accountant `bad_rw_intr`;
- the command helpers `win_result`, `hd_out`, `reset_controller` and `reset_hd`;
- the byte-level parsing of the bootstrap `sys_setup`.

The model is functional. A `Session` record holds:

- the `reset` and `recalibrate` flags;
- the function `do_hd` points to, as a tag: `Unarmed`, `OnRead`, `OnWrite` or `OnRecal`;
- the request queue, headed by CURRENT;
- the `Registry`: `hd_info[]`, `hd[]` and `NR_HD`.

Port accesses are trace `Event`s: `Arm` (the write of `do_hd`), `Ctl`, `TaskFile`, `Cmd`, `ReadError`, `DataIn`, `DataOut`, `Ended` and `Log`. Every `panic` is a `Halted` outcome. Two more situations also end in a `Halted` outcome, although the source does not stop at them:

- `DivideFault`: a `divl` by zero sectors or heads, which raises the divide-error exception;
- `NoRequest`: a handler reaching CURRENT while the queue is empty. The source goes on through the null pointer; the model stops there.

Each bounded polling loop becomes the boolean it decides. These are the fields of a `Probe`, one per pass of the dispatcher's `goto repeat` loop:

- `ready`: `controller_ready`;
- `drq`: the 3000-iteration DRQ poll;
- `settled` and `errorReg`: `drive_busy` and the error-register read of the reset sequence.

The interrupt status byte is a parameter of `Interrupt`. A run of interrupts is a sequence of `Irq` values. Each one carries its own status byte and its own hardware answers for the dispatch passes it triggers.

`drive_busy` logs "HD controller times out" and then `reset_controller` logs "HD-controller still busy". Both are `Log` events.

Modules:

- `Words`: 32-bit unsigned arithmetic and little-endian fields.
- `Geometry`: the registry and the cylinder/head/sector translation.
- `Driver`: the session, the events and the trace filters.
- `Protocol`: `win_result`, `hd_out` and the reset sequence.
- `Dispatcher`: `do_hd_request` and `bad_rw_intr`.
- `Completion`: the handlers and the interrupt entry.
- `Transfers`: whole multi-sector transfers and whole requests.
- `Setup`: `sys_setup`.

32-bit behaviour is written out where the source depends on it:

- `block + 2` and `block + start_sect` wrap;
- `--nr_sectors` wraps at zero;
- `head - 1` wraps for a zero head count;
- `head * sect * cyl` wraps.

The byte registers keep the low byte of what is written to them.

`bad_rw_intr` is modelled as written. When the seventh error fails the request, `end_request(0)` has already advanced CURRENT. The test `CURRENT->errors > MAX_ERRORS/2` therefore reads one of two things:

- the next request's error count;
- a value read through a null pointer, when the queue is now empty. This is the `stray` input.

## Model

| member | source | states |
|---|---|---|
| Words.Dec | mission5820/kernel/blk_drv/hd.c:332 | `--nr_sectors` in 32 bits: one less for a nonzero count, the largest word for zero, and zero exactly when the count was one |
| Words.Inc | mission5820/kernel/blk_drv/hd.c:331 | `sector++` in 32 bits: one more, except the largest word wraps to zero |
| Geometry.ToChs | mission5820/kernel/blk_drv/hd.c:396-400 | the two divides and `sec++` give a sector in 1..sect, a head below the head count, and a triple whose linear sector (cyl·heads + head)·sect + sec − 1 is the input block |
| Geometry.ToChsOfLinear | mission5820/kernel/blk_drv/hd.c:396-400 | the translation is the inverse of `Linear` on every in-track triple, so no two blocks share an address |
| Geometry.ToChsWithinDisk | mission5820/kernel/blk_drv/hd.c:396-400 | a block inside heads·sectors·cylinders lands on an existing cylinder |
| Protocol.WinResult | mission5820/kernel/blk_drv/hd.c:222-231 | success iff the status has READY and SEEK and none of BUSY, WRERR, ERR; the error register is read iff the status failed with bit 0 set |
| Protocol.SelectByte | mission5820/kernel/blk_drv/hd.c:256 | `0xA0 \| drive<<4 \| head` decodes back to the fixed bits 101, the drive and the head |
| Protocol.TaskFileFor | mission5820/kernel/blk_drv/hd.c:249-256 | the registers written decode back to the drive, the head, the 16-bit cylinder, the low bytes of count and sector, and precompensation / 4 |
| Protocol.HdOut | mission5820/kernel/blk_drv/hd.c:238-258 | drive > 1 or head > 15 halts and so does an unready controller; otherwise the handler is recorded before the control byte, task file and opcode, which is the only command written |
| Protocol.ResetController | mission5820/kernel/blk_drv/hd.c:278-290 | the reset pulse comes first, then drive 0's low control bits; no opcode is written and nothing is armed |
| Protocol.ResetReports | mission5820/kernel/blk_drv/hd.c:270-289 | the error register is always read; when the drive does not settle, "times out" and then "still busy" are logged after the pulse and the restored control byte, and only then; "reset failed" is logged iff the error register is not 1 |
| Protocol.LastHead | mission5820/kernel/blk_drv/hd.c:297 | `head - 1` as an unsigned argument: zero heads wraps to the largest word |
| Protocol.ResetHd | mission5820/kernel/blk_drv/hd.c:294-299 | reset first, then SPECIFY as the only opcode, with `recal_intr` armed; it halts iff the head count is 0 or over 16, or the controller is unready |
| Protocol.ResetHdSpecifies | mission5820/kernel/blk_drv/hd.c:294-299 | the SPECIFY task file carries sect as count and sector, heads − 1 as head, and cyl |
| Driver.Boot | mission5820/kernel/blk_drv/hd.c:47-48 | at boot `reset` and `recalibrate` are both set, nothing is armed and no request is queued |
| Dispatcher.Locate | mission5820/kernel/blk_drv/hd.c:383-400 | rejected iff the minor is at least 5·NR_HD or the 32-bit `sector + 2` exceeds the slot's length; otherwise drive = minor / 5 and block = sector + start_sect, and the address is in-track with linear sector block; it faults iff that drive has zero sectors or heads |
| Dispatcher.Accepted | mission5820/kernel/blk_drv/hd.c:388 | a request passes the minor and length test: minor below 5·NR_HD and the 32-bit `sector + 2` within the slot's length |
| Dispatcher.BadRwIntr | mission5820/kernel/blk_drv/hd.c:310-317 | the error count rises by exactly one; the request fails at 7; `reset` is set iff the count then read through CURRENT exceeds 3; no command, no data, and only the head of the queue changes |
| Dispatcher.IssueWrite | mission5820/kernel/blk_drv/hd.c:418-428 | the WRITE task file of the request's drive, head, sector, cylinder and count, then WIN_WRITE at position 3, with `write_intr` armed first; with DRQ the first sector is pushed right after the opcode and nothing else; without DRQ no data moves and the pass repeats |
| Dispatcher.Transfer | mission5820/kernel/blk_drv/hd.c:416-433 | READ issues WIN_READ with the task file of the request's address and moves no data; WRITE arms `write_intr`, issues the task file of the request's address, then WIN_WRITE, then pushes the buffer; any other command panics; on a sane drive only an unready controller halts |
| Dispatcher.WriteRetries | mission5820/kernel/blk_drv/hd.c:418-428 | when DRQ never asserts after WIN_WRITE, `bad_rw_intr` runs on the session `hd_out` left, so `write_intr` stays armed, the error is counted, the request fails at the seventh and a reset is set above three; its events follow the four of `hd_out` and the loop repeats; on a sane drive with a ready controller a missing DRQ always leads there |
| Dispatcher.Issue | mission5820/kernel/blk_drv/hd.c:403-415 | a pending reset clears itself, sets `recalibrate` and issues only SPECIFY (nsect = sect, head = heads − 1); a pending recalibration clears itself and issues only RESTORE, with the task file (sect, 0, 0, 0) of the drive; both arm `recal_intr`; only otherwise a transfer |
| Dispatcher.Pass | mission5820/kernel/blk_drv/hd.c:381-434 | an empty queue returns; a rejected request is ended with failure and the loop repeats with no command written; a zero divisor faults; a repeat always makes progress on the queue |
| Dispatcher.Dispatch | mission5820/kernel/blk_drv/hd.c:374-434 | the loop ends; it only drops requests from the front of the queue; a request left queued always has a handler armed; every opcode follows its handler's arming; with DRQ always asserted at most one command is written |
| Dispatcher.Failures | mission5820/kernel/blk_drv/hd.c:389 | one failed `end_request` per request, in queue order |
| Dispatcher.AllRejected | mission5820/kernel/blk_drv/hd.c:388-391 | a queue none of whose requests validates is emptied by one dispatch, failing each in order and writing no command |
| Completion.Failed | mission5820/kernel/blk_drv/hd.c:322-326 | the error path of every handler is `bad_rw_intr` followed by a fresh dispatch |
| Completion.ReadNext | mission5820/kernel/blk_drv/hd.c:328-332 | a read sector clears the error count, advances the buffer by 512 and the sector by one, and takes one off the count |
| Completion.WriteNext | mission5820/kernel/blk_drv/hd.c:352-355 | a written sector advances the request like a read, but keeps the error count |
| Completion.ReadIntr | mission5820/kernel/blk_drv/hd.c:320-339 | a bad status goes to the error path; a good one reads one sector into the buffer and re-arms `read_intr` iff sectors remain, otherwise it ends the request well and dispatches again |
| Completion.WriteIntr | mission5820/kernel/blk_drv/hd.c:344-362 | a bad status goes to the error path; a good one with sectors left re-arms `write_intr` and pushes the next 512 bytes, otherwise it ends the request well and dispatches again |
| Completion.RecalIntr | mission5820/kernel/blk_drv/hd.c:366-371 | a bad status counts an error; either way it dispatches again |
| Completion.Handle | mission5820/kernel/blk_drv/hd.c:304-307 | with no handler recorded the interrupt is only reported; every handler leaves the registry alone and a well-armed trace |
| Completion.HandleRoutes | mission5820/kernel/blk_drv/hd.c:304-307 | the handler the interrupt finds armed is the one that runs, with `do_hd` already cleared: `read_intr`, `write_intr` or `recal_intr` |
| Completion.Interrupt | mission5820/kernel/blk_drv/hd.c:320-371 | an interrupt never changes the registry, keeps the trace well armed, and keeps every queued request backed by an armed handler when that held before |
| Completion.Resume | mission5820/kernel/blk_drv/hd.c:325-370 | the tail calls of the handlers (lines 325, 338, 349, 361, 370): a finished handler's outcome stands; a redispatch runs `do_hd_request` on the handler's session, its trace is the handler's own events followed by exactly the dispatcher's, it runs on iff the dispatcher does, and it keeps the registry and leaves a live session |
| Completion.Interrupts | mission5820/kernel/blk_drv/hd.c:320-371 | the same holds for any run of interrupts, each with its own status and its own hardware answers |
| Transfers.WriteOn | mission5820/kernel/blk_drv/hd.c:352-358 | with any queue, a good interrupt with sectors left re-arms `write_intr`, pushes the next 512 bytes and leaves the rest of the run to the advanced head request, the rest of the queue untouched |
| Transfers.ReadOn | mission5820/kernel/blk_drv/hd.c:328-336 | with any queue, a good interrupt with sectors left reads one sector, re-arms `read_intr` and leaves the rest of the run to the advanced head request, the rest of the queue untouched |
| Transfers.WriteBurst | mission5820/kernel/blk_drv/hd.c:344-362 | after n good interrupts an n-sector write pushes sectors 2..n at buffer + 512·i, writes no command, and ends the request well with nothing armed |
| Transfers.ReadBurst | mission5820/kernel/blk_drv/hd.c:320-339 | after n good interrupts an n-sector read fills buffer + 512·i for i < n in order, writes no command, and ends the request well with nothing armed |
| Transfers.PassTransfers | mission5820/kernel/blk_drv/hd.c:388-400 | an accepted request on a sane drive, with no reset or recalibration pending and nothing armed, reaches the transfer branch with an address hd_out accepts |
| Transfers.WriteDispatched | mission5820/kernel/blk_drv/hd.c:418-428 | with a ready controller and DRQ, dispatch arms `write_intr`, writes the WRITE task file of the request's address, then exactly WIN_WRITE, then pushes exactly the first sector |
| Transfers.ReadDispatched | mission5820/kernel/blk_drv/hd.c:430-431 | with a ready controller, dispatch writes the task file of the request's address and exactly WIN_READ, moves no data, and arms `read_intr` |
| Transfers.WriteRequest | mission5820/kernel/blk_drv/hd.c:418-428 | an error-free n-sector write issues the task file of the request's address and one command in all, and pushes exactly the n buffer sectors in order, the first at issue time |
| Transfers.ReadRequest | mission5820/kernel/blk_drv/hd.c:320-339 | an error-free n-sector read issues the task file of the request's address and one command in all, and pulls exactly the n buffer sectors in order |
| Transfers.RecalResumes | mission5820/kernel/blk_drv/hd.c:366-371 | a good SPECIFY or RESTORE interrupt hands the session, with `do_hd` cleared, straight back to the dispatcher |
| Transfers.BootSpecifies | mission5820/kernel/blk_drv/hd.c:403-409 | from the boot flags, the first dispatch of an accepted request resets the controller and issues only SPECIFY, arming `recal_intr` and keeping the recalibration pending |
| Transfers.RestoreAfterSpecify | mission5820/kernel/blk_drv/hd.c:366-415 | the good SPECIFY interrupt leads to RESTORE as the only command, with `recal_intr` armed again and the recalibration flag cleared |
| Transfers.TransferAfterRestore | mission5820/kernel/blk_drv/hd.c:366-371 | the good RESTORE interrupt leaves no flag pending, so the next dispatch goes to the transfer of the head request |
| Setup.ParseDrive | mission5820/kernel/blk_drv/hd.c:104-112 | the BIOS record fields at offsets 0, 2, 5, 8, 12 and 14 of the drive's 16 bytes |
| Setup.ParseDriveOwnRecord | mission5820/kernel/blk_drv/hd.c:104-112 | a drive's parameters depend only on its own 16-byte record |
| Setup.WholeDisk | mission5820/kernel/blk_drv/hd.c:122-124 | heads·sectors·cylinders reduced to 32 bits, the length of a drive's whole-disk slot |
| Setup.BiosDrives | mission5820/kernel/blk_drv/hd.c:115-118 | two drives iff the second record has a nonzero cylinder count, otherwise one |
| Setup.SetWholeDisks | mission5820/kernel/blk_drv/hd.c:121-125 | slot 5i of each listed drive becomes start 0 and length heads·sectors·cylinders; no other slot changes |
| Setup.CmosDrives | mission5820/kernel/blk_drv/hd.c:165-171 | no drive iff the high nibble is zero, two iff both nibbles are nonzero |
| Setup.ClearWholeDisks | mission5820/kernel/blk_drv/hd.c:174-177 | whole-disk slots from NR_HD on become empty; no other slot changes |
| Setup.FillPartitions | mission5820/kernel/blk_drv/hd.c:195-199 | slots 5d+1..5d+4 take the four 32-bit start/length pairs at 0x1BE; no other slot changes |
| Setup.Entry | mission5820/kernel/blk_drv/hd.c:195-198 | partition entry k is read at 0x1BE + 16(k − 1): its start sector is the little-endian word at offset 8 and its length the word at offset 12 |
| Setup.Signed | mission5820/kernel/blk_drv/hd.c:189-190 | a partition block is accepted iff byte 510 is 0x55 and byte 511 is 0xAA |
| Setup.ReadTables | mission5820/kernel/blk_drv/hd.c:182-201 | it succeeds iff every drive's block was read and carries 0x55, 0xAA at bytes 510 and 511; otherwise it halts at the first drive that fails, naming why |
| Setup.ClearedSlots | mission5820/kernel/blk_drv/hd.c:121-177 | after both whole-disk loops, slot 5i is sized iff drive i is listed by both BIOS and CMOS, and every partition slot is still empty |
| Setup.PartitionSlots | mission5820/kernel/blk_drv/hd.c:182-201 | the partition loop touches no whole-disk slot and no slot of an absent drive |
| Setup.Setup | mission5820/kernel/blk_drv/hd.c:90-207 | the once-only guard is cleared by every call; a second call returns at once; the first is configured iff every CMOS-listed drive has a readable signed table; the result has the BIOS geometry, the CMOS drive count, sized whole-disk slots and the copied partition slots; a configured call with at least one drive prints "Partition table ok.", in the plural for two drives, and nothing else is printed |
| Setup.SetupOnce | mission5820/kernel/blk_drv/hd.c:99-101 | a second call on the guard the first call leaves behind returns -1 and configures nothing |

## Left out

- Interrupts are taken only between calls: `Interrupt` runs after a dispatch or handler has finished. In the source, `do_hd_request` runs with interrupts enabled when `add_request` calls it (`ll_rw_blk.c`, which is not part of this model), so a completion could arrive part-way through it. The model states instead that the handler is always armed before the opcode is written (`WellArmed`), which is the ordering this relies on.
- Port I/O (`inb`, `outb`, `port_read`, `port_write`) is recorded as trace events; no data values are modelled, only which buffer moves.
- The polling loops `controller_ready`, `drive_busy`, the reset delay and the DRQ poll are reduced to the booleans of a `Probe`.
- `hd_init` is not modelled: it installs the interrupt gate and unmasks the 8259 lines, with nothing to state beyond the writes.
- `INIT_REQUEST`, `end_request` and `CURRENT_DEV` live in `blk.h`, which is not part of this model. `end_request(ok)` is an `Ended` event followed by popping the queue, and `CURRENT_DEV` is taken as `minor / 5`.
- The interrupt trampoline `hd_interrupt` lives in `system_call.s`, which is not part of this model. It is modelled as "clear `do_hd`, then call the handler it held, or report an unexpected interrupt".
- `printk` text is reduced to the `Log` messages that the driver prints before continuing, and to the `TablesOk` message in the log `Setup` returns. The messages printed just before a `panic` are carried by the `Halt` reason instead.
- `bread`, `brelse`, `rd_load`, `mount_root` and the CMOS port read are outside the driver. The blocks read and CMOS byte 0x12 are inputs of `Setup`, and nothing relates them to the disk.
- Setup.Setup: the blocks are not derived from the driver. `bread` of block 0 goes through `do_hd_request` on the whole-disk slot. That slot is empty for a drive that CMOS lists and the BIOS record does not, so the request is refused at line 388 and the read fails at line 187. The model only sees the resulting `None`.
- The `HD_TYPE` compile-time branch of `sys_setup` is left out; only the BIOS-record branch is modelled.
- The status and command constants come from `hdreg.h`, which is not part of this model. The values used are the AT controller's.
- Dispatcher.Dispatch: the bound of at most one command per dispatch is stated only when DRQ asserts on every pass. When DRQ fails, the source repeats the loop after a WRITE has been written, and the next pass may write another command.
- Transfers.WriteRequest: the statement assumes a single queued request with nothing pending. The behaviour of later requests follows from `Dispatcher.Dispatch` but is not composed into one lemma.
- Transfers.ReadRequest: the same restriction as `Transfers.WriteRequest`.
- Transfers.WriteBurst: the statement assumes a single queued request. With more requests queued, `Transfers.WriteOn` still gives each step, but the run after the request ends is not composed.
- Transfers.ReadBurst: the same restriction as `Transfers.WriteBurst`, with `Transfers.ReadOn` for each step.
- Completion.ReadIntr: a good status with an empty queue halts with `NoRequest`. The source goes on through the null CURRENT, reading into and updating whatever lies at address 0.
- Completion.WriteIntr: a good status with an empty queue halts with `NoRequest`. The source goes on through the null CURRENT.
- Completion.Failed: an error with an empty queue halts with `NoRequest`. The source's `bad_rw_intr` goes on through the null CURRENT and then calls `do_hd_request`.

=== FILE: completion.dfy ===
/** The interrupt completion handlers `read_intr`, `write_intr`,
    `recal_intr`, and the interrupt entry that clears `do_hd` and calls the
    handler it held (or reports an unexpected interrupt). */
module Completion {
  import opened Words
  import opened Geometry
  import opened Driver
  import opened Protocol
  import opened Dispatcher

  /** A queued request is never left without a handler to continue it. */
  predicate Live(s: Session) {
    s.queue == [] || s.handler != Unarmed
  }

  /** How a handler finishes: it returns to the interrupted code with the
      given outcome, or its last act is a call of do_hd_request on the
      given state after the given events. */
  datatype Next = Done(out: Out) | Redispatch(s: Session, events: seq<Event>) {
    function Events(): seq<Event> {
      if Done? then out.events else events
    }
  }

  /** What every handler result keeps: the registry is unchanged, a handler
      that returns leaves a live session, and the trace is well armed. */
  predicate Keeps(s: Session, n: Next) {
    && WellArmed(n.Events())
    && (n.Done? && n.out.Run? ==> n.out.s.reg == s.reg && Live(n.out.s))
    && (n.Redispatch? ==> n.s.reg == s.reg)
  }

  /** The error path of every handler: bad_rw_intr, then do_hd_request. */
  function Failed(s: Session, v: Verdict, stray: nat): (r: Next)
    requires v.events == [] || v.events == [ReadError]
    ensures s.queue == [] ==> r == Done(Halted(NoRequest, v.events))
    ensures s.queue != [] ==>
      var b := BadRwIntr(s, stray);
      b.Run? && r == Redispatch(b.s, v.events + b.events)
    ensures Keeps(s, r)
  {
    match BadRwIntr(s, stray)
    case Halted(_, _) => Done(Halted(NoRequest, v.events))
    case Run(s1, e1) =>
      assert WellArmed(v.events);
      WellArmedAppend(v.events, e1);
      Redispatch(s1, v.events + e1)
  }

  /** The head request once read_intr has taken a sector: error count
      cleared, buffer and sector advanced by one sector, one sector fewer
      left (a 32-bit decrement). */
  function ReadNext(req: Request): (r: Request)
    ensures r.id == req.id && r.minor == req.minor && r.op == req.op
    ensures r.errors == 0 && r.buffer == req.buffer + SECTOR_BYTES
    ensures req.sector < TWO32 - 1 ==> r.sector == req.sector + 1
    ensures req.nrSectors >= 1 ==> r.nrSectors == req.nrSectors - 1
  {
    req.(errors := 0, buffer := req.buffer + SECTOR_BYTES, sector := Inc(req.sector),
         nrSectors := Dec(req.nrSectors))
  }

  /** The head request once write_intr has seen a sector written: as for a
      read, except that the error count is kept. */
  function WriteNext(req: Request): (r: Request)
    ensures r == ReadNext(req).(errors := req.errors)
  {
    req.(buffer := req.buffer + SECTOR_BYTES, sector := Inc(req.sector), nrSectors := Dec(req.nrSectors))
  }

  /** read_intr. On a good status one sector is read into the buffer, the
      error count is cleared and the request advances by one sector; the
      handler is re-armed while sectors remain, otherwise the request
      completes successfully and the dispatcher runs again. */
  function ReadIntr(s: Session, status: bv8, stray: nat): (r: Next)
    ensures !WinResult(status).ok ==> r == Failed(s, WinResult(status), stray)
    ensures WinResult(status).ok && s.queue == [] ==> r == Done(Halted(NoRequest, []))
    ensures WinResult(status).ok && s.queue != [] ==>
      var req := s.queue[0];
      if req.nrSectors != 1 then
        r == Done(Run(s.(handler := OnRead, queue := [ReadNext(req)] + s.queue[1..]),
                      [DataIn(req.buffer), Arm(OnRead)]))
      else
        r == Redispatch(s.(queue := s.queue[1..]), [DataIn(req.buffer), Ended(req.id, true)])
    ensures Keeps(s, r)
  {
    var v := WinResult(status);
    if !v.ok then Failed(s, v, stray)
    else if s.queue == [] then Done(Halted(NoRequest, v.events))
    else
      var req := s.queue[0];
      var next := ReadNext(req);
      var s1 := s.(queue := [next] + s.queue[1..]);
      if next.nrSectors != 0 then
        Done(Run(s1.(handler := OnRead), [DataIn(req.buffer), Arm(OnRead)]))
      else
        var e := EndRequest(s1, true);
        Redispatch(e.s, [DataIn(req.buffer)] + e.events)
  }

  /** write_intr. On a good status the count of sectors still to write drops
      by one; while sectors remain the request advances, the handler is
      re-armed and the next sector is pushed; otherwise the request
      completes. The error count is never cleared here. */
  function WriteIntr(s: Session, status: bv8, stray: nat): (r: Next)
    ensures !WinResult(status).ok ==> r == Failed(s, WinResult(status), stray)
    ensures WinResult(status).ok && s.queue == [] ==> r == Done(Halted(NoRequest, []))
    ensures WinResult(status).ok && s.queue != [] ==>
      var req := s.queue[0];
      if req.nrSectors != 1 then
        r == Done(Run(s.(handler := OnWrite, queue := [WriteNext(req)] + s.queue[1..]),
                      [Arm(OnWrite), DataOut(req.buffer + SECTOR_BYTES)]))
      else
        r == Redispatch(s.(queue := s.queue[1..]), [Ended(req.id, true)])
    ensures Keeps(s, r)
  {
    var v := WinResult(status);
    if !v.ok then Failed(s, v, stray)
    else if s.queue == [] then Done(Halted(NoRequest, v.events))
    else
      var req := s.queue[0];
      var next := WriteNext(req);
      if next.nrSectors != 0 then
        Done(Run(s.(handler := OnWrite, queue := [next] + s.queue[1..]), [Arm(OnWrite), DataOut(next.buffer)]))
      else
        var e := EndRequest(s.(queue := [req.(nrSectors := 0)] + s.queue[1..]), true);
        Redispatch(e.s, e.events)
  }

  /** recal_intr: count an error if the status is bad; either way run the
      dispatcher again. */
  function RecalIntr(s: Session, status: bv8, stray: nat): (r: Next)
    ensures WinResult(status).ok ==> r == Redispatch(s, [])
    ensures !WinResult(status).ok ==> r == Failed(s, WinResult(status), stray)
    ensures Keeps(s, r)
  {
    var v := WinResult(status);
    if !v.ok then Failed(s, v, stray) else Redispatch(s, [])
  }

  /** The interrupt entry: take `do_hd`, clear it, and call the handler it
      held; with no handler recorded only report the interrupt. */
  function Handle(s: Session, status: bv8, stray: nat): (r: Next)
    ensures s.handler == Unarmed ==> r == Done(Run(s, [Log(Unexpected)]))
    ensures WellArmed(r.Events())
    ensures r.Done? && r.out.Run? ==> r.out.s.reg == s.reg
    ensures Live(s) && r.Done? && r.out.Run? ==> Live(r.out.s)
    ensures r.Redispatch? ==> r.s.reg == s.reg
  {
    var s0 := s.(handler := Unarmed);
    match s.handler
    case Unarmed => Done(Run(s0, [Log(Unexpected)]))
    case OnRead => ReadIntr(s0, status, stray)
    case OnWrite => WriteIntr(s0, status, stray)
    case OnRecal => RecalIntr(s0, status, stray)
  }

  /** The interrupt entry runs the handler that was recorded, with `do_hd`
      already cleared: `read_intr` for a READ, `write_intr` for a WRITE,
      and `recal_intr` after SPECIFY or RESTORE. */
  lemma {:induction false} HandleRoutes(s: Session, status: bv8, stray: nat)
    ensures s.handler == OnRead ==> Handle(s, status, stray) == ReadIntr(s.(handler := Unarmed), status, stray)
    ensures s.handler == OnWrite ==> Handle(s, status, stray) == WriteIntr(s.(handler := Unarmed), status, stray)
    ensures s.handler == OnRecal ==> Handle(s, status, stray) == RecalIntr(s.(handler := Unarmed), status, stray)
  {
  }

  /** Carry out a handler's ending: a redispatch runs do_hd_request with
      the hardware answering from pass 0 on. */
  function Resume(n: Next, hw: nat -> Probe): (r: Out)
    requires n.Redispatch? ==> n.s.reg.Valid()
    requires WellArmed(n.Events())
    ensures n.Done? ==> r == n.out
    ensures n.Redispatch? && r.Run? ==> r.s.reg == n.s.reg && Live(r.s)
    ensures n.Redispatch? ==>
      var d := Dispatch(n.s, hw, 0);
      && |r.events| == |n.events| + |d.events| && r.events[..|n.events|] == n.events
      && r.events[|n.events|..] == d.events && (r.Run? <==> d.Run?)
      && (r.Run? ==> r.s == d.s) && (r.Halted? ==> r.why == d.why)
    ensures WellArmed(r.events)
  {
    match n
    case Done(o) => o
    case Redispatch(s1, e) =>
      var rest := Dispatch(s1, hw, 0);
      WellArmedAppend(e, rest.events);
      Prepend(e, rest)
  }

  /** One controller interrupt with status byte `status`. A bad status
      that fails the last queued request has bad_rw_intr read the stray
      value of pass 0. A live session stays live. */
  function Interrupt(s: Session, status: bv8, hw: nat -> Probe): (r: Out)
    requires s.reg.Valid()
    ensures s.handler == Unarmed ==> r == Run(s, [Log(Unexpected)])
    ensures r.Run? ==> r.s.reg == s.reg
    ensures Live(s) && r.Run? ==> Live(r.s)
    ensures WellArmed(r.events)
  {
    Resume(Handle(s, status, hw(0).stray), hw)
  }

  /** One controller interrupt of a run: the status byte it reports and
      what the hardware answers to the dispatch passes it triggers. */
  datatype Irq = Irq(status: bv8, hw: nat -> Probe)

  /** A run of interrupts, stopping at a halt. */
  function Interrupts(s: Session, irqs: seq<Irq>): (r: Out)
    requires s.reg.Valid()
    ensures r.Run? ==> r.s.reg == s.reg
    ensures Live(s) && r.Run? ==> Live(r.s)
    ensures WellArmed(r.events)
    decreases |irqs|
  {
    if irqs == [] then Run(s, [])
    else
      match Interrupt(s, irqs[0].status, irqs[0].hw)
      case Halted(w, e) => Halted(w, e)
      case Run(s1, e1) =>
        var rest := Interrupts(s1, irqs[1..]);
        WellArmedAppend(e1, rest.events);
        Prepend(e1, rest)
  }

  /** A served request: the session is idle with an empty queue, the
      opcodes `commands` were written, the data port moved exactly the
      buffers `pushed` out and `pulled` in, and the last event completed
      request `id` successfully. */
  predicate Served(r: Out, commands: seq<byte>, pushed: seq<nat>, pulled: seq<nat>, id: nat) {
    r.Run? && (r.s.queue, r.s.handler, Pushed(r.events), Pulled(r.events), Commands(r.events), Last(r.events))
              == ([], Unarmed, pushed, pulled, commands, Some(Ended(id, true)))
  }

  /** A finished burst: served without writing any command. */
  predicate Finished(r: Out, pushed: seq<nat>, pulled: seq<nat>, id: nat) {
    Served(r, [], pushed, pulled, id)
  }

  function Last(ev: seq<Event>): Option<Event> {
    if ev == [] then None else Some(ev[|ev| - 1])
  }
}

=== FILE: dispatcher.dfy ===
/** The request dispatcher `do_hd_request` and the error accountant
    `bad_rw_intr`. One call of `Pass` is one trip from the `repeat` label of
    INIT_REQUEST to a `return` or a `goto repeat`; `Dispatch` is the loop. */
module Dispatcher {
  import opened Words
  import opened Geometry
  import opened Driver
  import opened Protocol

  /** Where a request lands on the disk, or why it does not. */
  datatype Target =
    | Reject                           // minor or sector out of range: end_request(0)
    | Fault                            // divl by zero sectors or heads
    | Target(drive: nat, block: u32, chs: Chs)

  /** A request the dispatcher accepts: its minor names a slot of an
      existing drive and `sector + 2`, in 32 bits, fits the slot. */
  predicate Accepted(reg: Registry, req: Request)
    requires reg.Valid()
  {
    req.minor < SLOTS * reg.nrHd && Wrap(req.sector + 2) <= reg.hd[req.minor].nrSects
  }

  /** Validation and translation of the head request: the minor number must
      name a slot of an existing drive and `sector + 2` (in 32 bits) must not
      exceed the slot's length; the sector is then made absolute and split
      into cylinder/head/sector of drive `minor / 5`. */
  function Locate(reg: Registry, req: Request): (t: Target)
    requires reg.Valid()
    ensures t.Reject? <==> !Accepted(reg, req)
    ensures req.minor < SLOTS * reg.nrHd && req.sector + 2 < TWO32 ==>
      (t.Reject? <==> req.sector + 2 > reg.hd[req.minor].nrSects)
    ensures !t.Reject? ==>
      var info := reg.info[req.minor / SLOTS];
      t.Fault? <==> info.sect == 0 || info.head == 0
    ensures t.Target? ==>
      && t.drive == req.minor / SLOTS && t.drive < reg.nrHd
      && t.block == Wrap(req.sector + reg.hd[req.minor].startSect)
      && InTrack(t.chs, reg.info[t.drive].sect, reg.info[t.drive].head)
      && Linear(t.chs, reg.info[t.drive].sect, reg.info[t.drive].head) == t.block
      && t.chs.cyl <= t.block
  {
    if req.minor >= SLOTS * reg.nrHd || Wrap(req.sector + 2) > reg.hd[req.minor].nrSects then
      Reject
    else
      var block := Wrap(req.sector + reg.hd[req.minor].startSect);
      var drive := req.minor / SLOTS;
      var info := reg.info[drive];
      if info.sect == 0 || info.head == 0 then Fault
      else Target(drive, block, ToChs(block, info.sect, info.head))
  }

  /** bad_rw_intr: count one more error on the head request and fail it at
      MAX_ERRORS. The source then tests `CURRENT->errors > MAX_ERRORS/2`
      again through CURRENT, which end_request may already have advanced to
      the next request (or to nothing, when `stray` is what is read). */
  function BadRwIntr(s: Session, stray: nat): (r: Out)
    ensures r.Halted? <==> |s.queue| == 0
    ensures r.Halted? ==> r.why == NoRequest && r.events == []
    ensures r.Run? ==>
      && r.s.handler == s.handler && r.s.reg == s.reg && r.s.recalibrate == s.recalibrate
      && Commands(r.events) == [] && Pushed(r.events) == [] && Pulled(r.events) == [] && WellArmed(r.events)
    ensures r.Run? ==> Progress(s.queue, r.s.queue) && Drained(s.queue, r.s.queue)
    ensures |s.queue| > 0 ==>
      var e := s.queue[0].errors + 1;
      && (e >= MAX_ERRORS ==>
            && r.events == [Ended(s.queue[0].id, false)] && r.s.queue == s.queue[1..]
            && (r.s.reset <==> s.reset || (if |s.queue| > 1 then s.queue[1].errors else stray) > 3))
      && (e < MAX_ERRORS ==>
            && r.events == [] && r.s.queue == [s.queue[0].(errors := e)] + s.queue[1..]
            && (r.s.reset <==> s.reset || e > 3))
  {
    if |s.queue| == 0 then Halted(NoRequest, [])
    else
      var req := s.queue[0].(errors := s.queue[0].errors + 1);
      var s1 := s.(queue := [req] + s.queue[1..]);
      var o := if req.errors >= MAX_ERRORS then EndRequest(s1, false) else Run(s1, []);
      assert o.events == [] || o.events == [Ended(req.id, false)];
      NoCommands(o.events);
      NoData(o.events);
      var seen := if |o.s.queue| > 0 then o.s.queue[0].errors else stray;
      Run(o.s.(reset := o.s.reset || seen > MAX_ERRORS / 2), o.events)
  }

  /** Measure of the `goto repeat` loop: a pass either drops the head
      request or adds an error to it below MAX_ERRORS. */
  function Budget(q: seq<Request>): nat {
    if |q| > 0 && q[0].errors < MAX_ERRORS then MAX_ERRORS - q[0].errors else 0
  }

  predicate Progress(q: seq<Request>, q': seq<Request>) {
    |q'| < |q| || (|q'| == |q| && Budget(q') < Budget(q))
  }

  /** The rest of the queue is left alone: `q'` is `q` minus a prefix, except
      that its head may carry a different error count. */
  predicate Drained(q: seq<Request>, q': seq<Request>) {
    |q'| <= |q| && (q' == [] || q'[1..] == q[|q| - |q'| + 1..])
  }

  lemma {:induction false} DrainedTrans(a: seq<Request>, b: seq<Request>, c: seq<Request>)
    requires Drained(a, b) && Drained(b, c)
    ensures Drained(a, c)
  {
    if c != [] {
      assert b != [];
      assert c[1..] == b[|b| - |c| + 1..];
      assert b[|b| - |c| + 1..] == b[1..][|b| - |c|..];
    }
  }

  datatype PassResult = Again(s: Session, events: seq<Event>) | Stop(out: Out) {
    function Events(): seq<Event> {
      if Again? then events else out.events
    }
  }

  /** WIN_WRITE as hd_out issues it for `req`: `write_intr` armed first, the
      task file of the request's address at position 2, the opcode at 3. */
  predicate WriteIssued(reg: Registry, req: Request, t: Target, ev: seq<Event>)
    requires reg.Valid()
  {
    && t.Target? && t.drive <= 1 && t.chs.head <= 15 && t.chs.sec < TWO32 && t.chs.cyl < TWO32
    && |ev| >= 4 && ev[0] == Arm(OnWrite) && ev[3] == Cmd(WIN_WRITE)
    && ev[2] == TaskFileFor(reg.info[t.drive], t.drive, req.nrSectors, t.chs.sec, t.chs.head, t.chs.cyl)
  }

  /** What follows the command does not change how it was issued. */
  lemma {:induction false} WriteIssuedPrefix(reg: Registry, req: Request, t: Target, ev: seq<Event>, more: seq<Event>)
    requires reg.Valid() && WriteIssued(reg, req, t, ev)
    ensures WriteIssued(reg, req, t, ev + more)
  {
    assert (ev + more)[..4] == ev[..4];
  }

  /** DRQ never asserted after WIN_WRITE: bad_rw_intr ran on the session
      hd_out left, `write_intr` still armed, and its events follow the four
      of hd_out before the loop repeats. */
  predicate WriteRetried(s: Session, p: Probe, r: PassResult) {
    var b := BadRwIntr(s.(handler := OnWrite), p.stray);
    && r.Again? && b.Run? && r.s == b.s && |r.events| == 4 + |b.events| && r.events[4..] == b.events
  }

  /** The WRITE branch: issue the command, poll DRQ; if it never asserts,
      count an error and go round again, otherwise push the first sector. */
  function IssueWrite(s: Session, req: Request, t: Target, p: Probe): (r: PassResult)
    requires s.reg.Valid() && s.queue != [] && s.queue[0] == req
    requires t.Target? && t.drive < MAX_HD && t.chs.sec < TWO32 && t.chs.head < TWO32 && t.chs.cyl < TWO32
    ensures r.Again? ==> !p.drq && r.s.reg == s.reg && Progress(s.queue, r.s.queue)
                         && Drained(s.queue, r.s.queue)
    ensures r.Stop? && r.out.Run? ==>
      && p.drq && r.out.s == s.(handler := OnWrite) && Pushed(r.out.events) == [req.buffer]
      && |r.out.events| == 5 && r.out.events[4] == DataOut(req.buffer)
    ensures r.Again? || r.out.Run? ==> WriteIssued(s.reg, req, t, r.Events())
    ensures Commands(r.Events()) == if r.Again? || r.out.Run? then [WIN_WRITE] else []
    ensures WellArmed(r.Events()) && Pulled(r.Events()) == []
    ensures r.Again? ==> Pushed(r.Events()) == []
    ensures t.drive <= 1 && t.chs.head <= 15 && r.Stop? && r.out.Halted? ==> r.out.why == NotReady
  {
    var o := HdOut(s, t.drive, req.nrSectors, t.chs.sec, t.chs.head, t.chs.cyl, WIN_WRITE, OnWrite, p.ready);
    if o.Halted? then
      Stop(o)
    else if p.drq then
      AppendPush(o.events, req.buffer);
      WriteIssuedPrefix(s.reg, req, t, o.events, [DataOut(req.buffer)]);
      Stop(Run(o.s, o.events + [DataOut(req.buffer)]))
    else
      var b := BadRwIntr(o.s, p.stray);
      AppendQuiet(o.events, b.events);
      WriteIssuedPrefix(s.reg, req, t, o.events, b.events);
      Again(b.s, o.events + b.events)
  }

  /** The DRQ timeout of the WRITE branch: after WIN_WRITE has gone out,
      bad_rw_intr counts the error (failing the request at the seventh,
      escalating to a reset above three) with `write_intr` still armed, and
      the loop repeats. */
  lemma {:induction false} WriteRetries(s: Session, t: Target, p: Probe)
    requires s.reg.Valid() && s.queue != [] && t == Locate(s.reg, s.queue[0]) && t.Target?
    ensures var r := Transfer(s, t, p);
      && (r.Again? ==> WriteRetried(s, p, r))
      && (s.queue[0].op.Write? && s.reg.Sane() && p.ready && !p.drq ==> r.Again?)
  {
    var req := s.queue[0];
    Addressable(s.reg, req, t);
    var o := HdOut(s, t.drive, req.nrSectors, t.chs.sec, t.chs.head, t.chs.cyl, WIN_WRITE, OnWrite, p.ready);
    if Transfer(s, t, p).Again? {
      assert req.op.Write?;
      assert o.Run? && |o.events| == 4 && o.s == s.(handler := OnWrite);
    }
  }

  /** A validated request of a sane drive is addressable by hd_out. */
  lemma {:induction false} Addressable(reg: Registry, req: Request, t: Target)
    requires reg.Valid() && t == Locate(reg, req) && t.Target?
    ensures t.drive <= 1
    ensures reg.Sane() ==> t.chs.head <= 15
  {
    if reg.Sane() {
      assert reg.info[t.drive].head <= 16;
    }
  }

  /** The transfer branch of a pass, for a head request that passed
      validation with no reset or recalibration pending: WRITE, READ, or
      the panic for any other command. */
  function Transfer(s: Session, t: Target, p: Probe): (r: PassResult)
    requires s.reg.Valid() && s.queue != [] && t == Locate(s.reg, s.queue[0]) && t.Target?
    ensures var req := s.queue[0];
      && (req.op.Read? ==>
            && r.Stop? && Commands(r.out.events) == (if r.out.Run? then [WIN_READ] else [])
            && (r.out.Run? ==> && r.out.s == s.(handler := OnRead) && |r.out.events| == 4
                               && t.chs.head <= 15
                               && r.out.events[2] == TaskFileFor(s.reg.info[t.drive], t.drive, req.nrSectors,
                                                                 t.chs.sec, t.chs.head, t.chs.cyl)))
      && (req.op.Write? ==>
            && Commands(r.Events()) == (if r.Again? || r.out.Run? then [WIN_WRITE] else [])
            && (r.Stop? && r.out.Run? ==> && r.out.s == s.(handler := OnWrite) && Pushed(r.out.events) == [req.buffer]
                                          && |r.out.events| == 5 && r.out.events[4] == DataOut(req.buffer))
            && (r.Again? || r.out.Run? ==> WriteIssued(s.reg, req, t, r.Events()))
            && (r.Again? ==> !p.drq))
      && (req.op.OtherOp? ==> r == Stop(Halted(UnknownCommand(req.op.code), [])))
    ensures r.Again? ==> r.s.reg == s.reg && Progress(s.queue, r.s.queue) && Drained(s.queue, r.s.queue)
    ensures r.Again? ==> Pushed(r.Events()) == [] && Pulled(r.Events()) == []
    ensures r.Stop? && r.out.Run? ==> r.out.s.reg == s.reg && r.out.s.queue == s.queue && r.out.s.handler != Unarmed
    ensures WellArmed(r.Events()) && |Commands(r.Events())| <= 1
    ensures Pulled(r.Events()) == [] && (s.queue[0].op.Read? ==> Pushed(r.Events()) == [])
    ensures s.reg.Sane() && r.Stop? && r.out.Halted? ==> r.out.why == NotReady || r.out.why.UnknownCommand?
    ensures s.reg.Sane() && p.ready && !s.queue[0].op.OtherOp? ==> r.Again? || r.out.Run?
  {
    var req := s.queue[0];
    Addressable(s.reg, req, t);
    match req.op
    case Write => IssueWrite(s, req, t, p)
    case Read =>
      Stop(HdOut(s, t.drive, req.nrSectors, t.chs.sec, t.chs.head, t.chs.cyl, WIN_READ, OnRead, p.ready))
    case OtherOp(c) => Stop(Halted(UnknownCommand(c), []))
  }

  /** A pass for a head request that passed validation: a pending reset
      comes first (only SPECIFY, with recal_intr armed, and a recalibration
      queued behind it), then a pending recalibration (only RESTORE, with
      recal_intr armed), and only then the transfer. */
  function Issue(s: Session, t: Target, p: Probe): (r: PassResult)
    requires s.reg.Valid() && s.queue != [] && t == Locate(s.reg, s.queue[0]) && t.Target?
    ensures s.reset ==>
      var info := s.reg.info[t.drive];
      && r.Stop? && |r.out.events| >= 3
      && Commands(r.out.events) == (if r.out.Run? then [WIN_SPECIFY] else [])
      && (r.out.Run? ==> 1 <= info.head <= 16
                         && r.out.s == s.(reset := false, recalibrate := true, handler := OnRecal))
      && (r.out.Run? ==> r.out.events[|r.out.events| - 2]
                           == TaskFileFor(info, t.drive, info.sect, info.sect, info.head - 1, info.cyl))
    ensures !s.reset && s.recalibrate ==>
      && r.Stop? && Commands(r.out.events) == (if r.out.Run? then [WIN_RESTORE] else [])
      && (r.out.Run? ==> r.out.s == s.(recalibrate := false, handler := OnRecal))
      && (r.out.Run? ==> |r.out.events| == 4 && r.out.events[0] == Arm(OnRecal)
                         && r.out.events[2] == TaskFileFor(s.reg.info[t.drive], t.drive, s.reg.info[t.drive].sect, 0, 0, 0))
    ensures !s.reset && !s.recalibrate ==> r == Transfer(s, t, p)
    ensures r.Again? ==> r.s.reg == s.reg && Progress(s.queue, r.s.queue) && Drained(s.queue, r.s.queue)
    ensures r.Again? ==> Pushed(r.Events()) == [] && Pulled(r.Events()) == [] && !p.drq
    ensures r.Stop? && r.out.Run? ==> r.out.s.reg == s.reg && r.out.s.queue == s.queue && r.out.s.handler != Unarmed
    ensures WellArmed(r.Events()) && |Commands(r.Events())| <= 1
    ensures s.reg.Sane() && r.Stop? && r.out.Halted? ==> r.out.why == NotReady || r.out.why.UnknownCommand?
  {
    if s.reset then
      Stop(ResetHd(s.(reset := false, recalibrate := true), t.drive, p))
    else if s.recalibrate then
      Stop(HdOut(s.(recalibrate := false), t.drive, s.reg.info[t.drive].sect, 0, 0, 0,
                 WIN_RESTORE, OnRecal, p.ready))
    else
      Transfer(s, t, p)
  }

  /** One pass of do_hd_request: an empty queue returns; a request whose
      minor or sector range is invalid is failed and the loop restarts with
      no command issued; a zero divisor faults; the rest is `Issue`. */
  function Pass(s: Session, p: Probe): (r: PassResult)
    requires s.reg.Valid()
    ensures s.queue == [] ==> r == Stop(Run(s, []))
    ensures s.queue != [] && Locate(s.reg, s.queue[0]).Reject? ==>
      r == Again(s.(queue := s.queue[1..]), [Ended(s.queue[0].id, false)])
    ensures s.queue != [] && Locate(s.reg, s.queue[0]).Fault? ==> r == Stop(Halted(DivideFault, []))
    ensures r.Again? ==> r.s.reg == s.reg && Progress(s.queue, r.s.queue) && Drained(s.queue, r.s.queue)
    ensures r.Stop? && r.out.Run? ==>
      && r.out.s.reg == s.reg && (r.out.s.queue == [] || r.out.s.handler != Unarmed)
      && Drained(s.queue, r.out.s.queue)
    ensures WellArmed(r.Events())
    ensures |Commands(r.Events())| <= 1
    ensures r.Again? ==> Pushed(r.Events()) == [] && Pulled(r.Events()) == []
    ensures r.Again? && p.drq ==> Commands(r.Events()) == []
    ensures s.reg.Sane() && r.Stop? && r.out.Halted? ==> r.out.why == NotReady || r.out.why.UnknownCommand?
  {
    if s.queue == [] then Stop(Run(s, []))
    else
      var req := s.queue[0];
      var t := Locate(s.reg, req);
      if t.Reject? then
        assert [Ended(req.id, false)][1..] == [];
        Again(s.(queue := s.queue[1..]), [Ended(req.id, false)])
      else if t.Fault? then
        Stop(Halted(DivideFault, []))
      else
        Issue(s, t, p)
  }

  /** do_hd_request: passes until one returns. Pass `k` sees probe `hw(k)`. */
  function Dispatch(s: Session, hw: nat -> Probe, k: nat): (r: Out)
    requires s.reg.Valid()
    ensures r.Run? ==> r.s.reg == s.reg && Drained(s.queue, r.s.queue)
    ensures r.Run? ==> r.s.queue == [] || r.s.handler != Unarmed
    ensures WellArmed(r.events)
    ensures s.queue == [] ==> r == Run(s, [])
    ensures s.reg.Sane() && r.Halted? ==> r.why == NotReady || r.why.UnknownCommand?
    ensures (forall j :: k <= j ==> hw(j).drq) ==> |Commands(r.events)| <= 1
    decreases |s.queue|, Budget(s.queue)
  {
    var pr := Pass(s, hw(k));
    if pr.Stop? then pr.out
    else
      var rest := Dispatch(pr.s, hw, k + 1);
      WellArmedAppend(pr.events, rest.events);
      FiltersAppend(pr.events, rest.events);
      DrainedTrans(s.queue, pr.s.queue, if rest.Run? then rest.s.queue else pr.s.queue);
      Prepend(pr.events, rest)
  }

  /** `end_request(0)` for each request of `q`, in order. */
  function Failures(q: seq<Request>): (ev: seq<Event>)
    ensures |ev| == |q|
    ensures forall i :: 0 <= i < |q| ==> ev[i] == Ended(q[i].id, false)
  {
    if q == [] then [] else [Ended(q[0].id, false)] + Failures(q[1..])
  }

  /** A queue none of whose requests pass validation is drained by one
      call of do_hd_request: each request is failed in turn, no command
      reaches the controller, and the session is otherwise untouched. */
  lemma {:induction false} AllRejected(s: Session, hw: nat -> Probe, k: nat)
    requires s.reg.Valid()
    requires forall i :: 0 <= i < |s.queue| ==> !Accepted(s.reg, s.queue[i])
    ensures Dispatch(s, hw, k) == Run(s.(queue := []), Failures(s.queue))
    ensures Commands(Failures(s.queue)) == []
    decreases |s.queue|
  {
    var ev := Failures(s.queue);
    NoCommands(ev);
    if s.queue != [] {
      var req := s.queue[0];
      var s1 := s.(queue := s.queue[1..]);
      assert forall i :: 0 <= i < |s1.queue| ==> s1.queue[i] == s.queue[i + 1];
      assert Pass(s, hw(k)) == Again(s1, [Ended(req.id, false)]);
      AllRejected(s1, hw, k + 1);
      assert ev == [Ended(req.id, false)] + Failures(s1.queue);
      assert s1.(queue := []) == s.(queue := []);
    }
  }
}

=== FILE: driver.dfy ===
/** The controller session: the `reset`/`recalibrate` flags, the completion
    handler `do_hd` as a tag, the request queue headed by CURRENT, and the
    registry. Port accesses and completions are recorded as trace events;
    a `panic` is a distinguished halt outcome, and so are a `divl` by zero
    and a handler reaching a null CURRENT, where the model stops. */
module Driver {
  import opened Words
  import opened Geometry

  /** Max read/write errors per request before it is failed. */
  const MAX_ERRORS: nat := 7
  const SECTOR_BYTES: nat := 512

  /** The function `do_hd` points to: nothing, `read_intr`, `write_intr`
      or `recal_intr`. */
  datatype Handler = Unarmed | OnRead | OnWrite | OnRecal

  datatype Op = Read | Write | OtherOp(code: nat)

  /** A queued block request: the fields of the request structure the
      driver reads and updates. `buffer` is the address of the next sector's
      512 bytes; `id` only names the request in the trace. */
  datatype Request = Request(id: nat, minor: byte, op: Op, sector: u32, nrSectors: u32,
                             buffer: nat, errors: nat)

  datatype Session = Session(reset: bool, recalibrate: bool, handler: Handler,
                             queue: seq<Request>, reg: Registry)

  /** Messages the source prints and continues; `TablesOk` is the
      "Partition table(s) ok." of sys_setup, plural for two drives. */
  datatype Msg = TimesOut | StillBusy | ResetFailed(code: bv8) | Unexpected | TablesOk(plural: bool)

  datatype Event =
    | Arm(h: Handler)                  // do_hd := handler
    | Ctl(b: byte)                     // write to the control register
    | TaskFile(precomp: byte, nsect: byte, sector: byte, cylLow: byte, cylHigh: byte, select: byte)
    | Cmd(op: byte)                    // opcode write; starts the controller
    | ReadError                        // read of the error register
    | DataIn(buf: nat)                 // 256 words from the data port into buf
    | DataOut(buf: nat)                // 256 words from buf to the data port
    | Ended(id: nat, ok: bool)         // end_request(ok) on the head request
    | Log(msg: Msg)

  datatype Halt =
    | BadSector                        // hd_out: drive > 1 or head > 15
    | NotReady                         // hd_out: controller never became ready
    | UnknownCommand(code: nat)        // request neither READ nor WRITE
    | DivideFault                      // divl by a zero sectors or heads count
    | NoRequest                        // a handler reaches CURRENT with the queue empty: the
                                       // source goes on through a null pointer, the model stops
    | Unreadable(drive: nat)           // setup: partition block could not be read
    | BadTable(drive: nat)             // setup: no 0x55,0xAA signature

  datatype Out = Run(s: Session, events: seq<Event>) | Halted(why: Halt, events: seq<Event>)

  /** What the hardware answers during one pass of the dispatcher:
      `ready` — controller_ready() succeeded before a command;
      `drq` — DRQ asserted within the 3000 polls after a WRITE command;
      `settled` — drive_busy() saw READY|SEEK after a controller reset;
      `errorReg` — the error register read after a controller reset;
      `stray` — what bad_rw_intr reads as CURRENT->errors when end_request
      has just emptied the queue (the read goes through a null pointer). */
  datatype Probe = Probe(ready: bool, drq: bool, settled: bool, errorReg: bv8, stray: nat)

  /** The state at boot: one reset and recalibration are forced before the
      first transfer. */
  function Boot(reg: Registry): (s: Session)
    ensures s.reset && s.recalibrate && s.handler == Unarmed && s.queue == []
  {
    Session(true, true, Unarmed, [], reg)
  }

  function Prepend(ev: seq<Event>, o: Out): (r: Out)
    ensures r.events == ev + o.events
    ensures r.Run? <==> o.Run?
    ensures r.Run? ==> r.s == o.s
    ensures r.Halted? ==> r.why == o.why
  {
    match o
    case Run(s, e) => Run(s, ev + e)
    case Halted(w, e) => Halted(w, ev + e)
  }

  /** end_request(ok): complete the head request and advance the queue. */
  function EndRequest(s: Session, ok: bool): (r: Out)
    requires |s.queue| > 0
    ensures r.Run? && r.events == [Ended(s.queue[0].id, ok)]
    ensures r.s == s.(queue := s.queue[1..])
  {
    Run(s.(queue := s.queue[1..]), [Ended(s.queue[0].id, ok)])
  }

  /** The opcodes written, in order. */
  function Commands(ev: seq<Event>): seq<byte>
  {
    if ev == [] then [] else (if ev[0].Cmd? then [ev[0].op] else []) + Commands(ev[1..])
  }

  /** The buffers pushed to the data port, in order. */
  function Pushed(ev: seq<Event>): seq<nat>
  {
    if ev == [] then [] else (if ev[0].DataOut? then [ev[0].buf] else []) + Pushed(ev[1..])
  }

  /** The buffers filled from the data port, in order. */
  function Pulled(ev: seq<Event>): seq<nat>
  {
    if ev == [] then [] else (if ev[0].DataIn? then [ev[0].buf] else []) + Pulled(ev[1..])
  }

  /** `n` consecutive sector buffers starting at `buf`. */
  function Strides(buf: nat, n: nat): (r: seq<nat>)
    ensures |r| == n
    ensures forall i :: 0 <= i < n ==> r[i] == buf + i * SECTOR_BYTES
    decreases n
  {
    if n == 0 then [] else [buf] + Strides(buf + SECTOR_BYTES, n - 1)
  }

  lemma {:induction false} FiltersAppend(a: seq<Event>, b: seq<Event>)
    ensures Commands(a + b) == Commands(a) + Commands(b)
    ensures Pushed(a + b) == Pushed(a) + Pushed(b)
    ensures Pulled(a + b) == Pulled(a) + Pulled(b)
  {
    CommandsAppend(a, b);
    PushedAppend(a, b);
    PulledAppend(a, b);
  }

  lemma {:induction false} CommandsAppend(a: seq<Event>, b: seq<Event>)
    ensures Commands(a + b) == Commands(a) + Commands(b)
  {
    if a == [] {
      assert a + b == b;
    } else {
      var ab := a + b;
      assert ab[0] == a[0] && ab[1..] == a[1..] + b;
      CommandsAppend(a[1..], b);
      var h := if a[0].Cmd? then [a[0].op] else [];
      assert h + (Commands(a[1..]) + Commands(b)) == (h + Commands(a[1..])) + Commands(b);
    }
  }

  lemma {:induction false} PushedAppend(a: seq<Event>, b: seq<Event>)
    ensures Pushed(a + b) == Pushed(a) + Pushed(b)
  {
    if a == [] {
      assert a + b == b;
    } else {
      var ab := a + b;
      assert ab[0] == a[0] && ab[1..] == a[1..] + b;
      PushedAppend(a[1..], b);
      var h := if a[0].DataOut? then [a[0].buf] else [];
      assert h + (Pushed(a[1..]) + Pushed(b)) == (h + Pushed(a[1..])) + Pushed(b);
    }
  }

  lemma {:induction false} PulledAppend(a: seq<Event>, b: seq<Event>)
    ensures Pulled(a + b) == Pulled(a) + Pulled(b)
  {
    if a == [] {
      assert a + b == b;
    } else {
      var ab := a + b;
      assert ab[0] == a[0] && ab[1..] == a[1..] + b;
      PulledAppend(a[1..], b);
      var h := if a[0].DataIn? then [a[0].buf] else [];
      assert h + (Pulled(a[1..]) + Pulled(b)) == (h + Pulled(a[1..])) + Pulled(b);
    }
  }

  lemma {:induction false} NoCommands(ev: seq<Event>)
    requires forall i :: 0 <= i < |ev| ==> !ev[i].Cmd?
    ensures Commands(ev) == []
  {
    if ev != [] {
      NoCommands(ev[1..]);
    }
  }

  lemma {:induction false} NoData(ev: seq<Event>)
    requires forall i :: 0 <= i < |ev| ==> !ev[i].DataIn? && !ev[i].DataOut?
    ensures Pushed(ev) == [] && Pulled(ev) == []
  {
    if ev != [] {
      NoData(ev[1..]);
    }
  }

  /** No opcode reaches the controller unless the completion handler was
      recorded just before its register block (control byte, task file),
      so the interrupt the opcode triggers always finds its handler. */
  predicate WellArmed(ev: seq<Event>) {
    forall i :: 0 <= i < |ev| ==> ArmedAt(ev, i)
  }

  /** The event at `i` is no opcode, or it is one whose handler was
      recorded three events earlier. */
  predicate ArmedAt(ev: seq<Event>, i: nat)
    requires i < |ev|
  {
    ev[i].Cmd? ==> i >= 3 && ev[i - 3].Arm? && ev[i - 3].h != Unarmed
  }

  lemma {:induction false} WellArmedAppend(a: seq<Event>, b: seq<Event>)
    requires WellArmed(a) && WellArmed(b)
    ensures WellArmed(a + b)
  {
    forall i | 0 <= i < |a + b| ensures ArmedAt(a + b, i) {
      if i < |a| {
        assert ArmedAt(a, i);
        assert (a + b)[i] == a[i];
        if i >= 3 {
          assert (a + b)[i - 3] == a[i - 3];
        }
      } else {
        var k := i - |a|;
        assert ArmedAt(b, k);
        assert (a + b)[i] == b[k];
        if k >= 3 {
          assert (a + b)[i - 3] == b[k - 3];
        }
      }
    }
  }

  /** Appending events that touch neither the command register nor the
      data port changes none of the three filters. */
  lemma {:induction false} AppendQuiet(a: seq<Event>, b: seq<Event>)
    requires WellArmed(a) && WellArmed(b)
    requires Commands(b) == [] && Pushed(b) == [] && Pulled(b) == []
    ensures WellArmed(a + b)
    ensures Commands(a + b) == Commands(a) && Pushed(a + b) == Pushed(a) && Pulled(a + b) == Pulled(a)
  {
    FiltersAppend(a, b);
    WellArmedAppend(a, b);
  }

  /** Appending one sector write. */
  lemma {:induction false} AppendPush(a: seq<Event>, buf: nat)
    requires WellArmed(a)
    ensures WellArmed(a + [DataOut(buf)])
    ensures Commands(a + [DataOut(buf)]) == Commands(a)
    ensures Pushed(a + [DataOut(buf)]) == Pushed(a) + [buf]
    ensures Pulled(a + [DataOut(buf)]) == Pulled(a)
  {
    FiltersAppend(a, [DataOut(buf)]);
    assert [DataOut(buf)][1..] == [];
    WellArmedAppend(a, [DataOut(buf)]);
  }
}

=== FILE: geometry.dfy ===
/** The geometry and partition registry: per-drive parameters (`hd_info[]`),
    the extent table indexed by minor number (`hd[]`), and the translation of
    an absolute sector into cylinder/head/sector coordinates. */
module Geometry {
  import opened Words

  /** Drives the controller supports (MAX_HD). */
  const MAX_HD: nat := 2
  /** Minor numbers per drive: slot 0 is the whole disk, 1..4 the partitions. */
  const SLOTS: nat := 5

  /** One `hd_i_struct`, as filled from the BIOS parameter record. */
  datatype DriveInfo = DriveInfo(head: byte, sect: byte, cyl: u16, wpcom: u16, lzone: u16, ctl: byte)

  /** One `hd_struct`. The source stores both fields in a signed `long`, but
      every use converts them back to 32-bit unsigned, so they are words here. */
  datatype Extent = Extent(startSect: u32, nrSects: u32)

  /** `hd_info[]`, `hd[]` and `NR_HD`. */
  datatype Registry = Registry(info: seq<DriveInfo>, hd: seq<Extent>, nrHd: nat) {
    predicate Valid() {
      |info| == MAX_HD && |hd| == SLOTS * MAX_HD && nrHd <= MAX_HD
    }

    /** Every present drive has a geometry the controller can address:
        1..16 heads and at least one sector per track. */
    predicate Sane()
      requires Valid()
    {
      forall d :: 0 <= d < nrHd ==> 1 <= info[d].head <= 16 && 1 <= info[d].sect
    }
  }

  /** Slot `k` of drive `d` in the table `hd`: 0 is the whole disk, 1..4
      the partitions. */
  function Slot(hd: seq<Extent>, d: nat, k: nat): Extent
    requires |hd| == SLOTS * MAX_HD && d < MAX_HD && k < SLOTS
  {
    hd[SLOTS * d + k]
  }

  /** Cylinder, head and 1-based sector within the track. */
  datatype Chs = Chs(cyl: nat, head: nat, sec: nat)

  predicate InTrack(c: Chs, sect: nat, heads: nat) {
    1 <= c.sec <= sect && c.head < heads
  }

  /** The linear sector a CHS address denotes on a drive with `sect` sectors
      per track and `heads` heads. */
  function Linear(c: Chs, sect: nat, heads: nat): int {
    (c.cyl * heads + c.head) * sect + (c.sec - 1)
  }

  /** The two `divl` steps of the dispatcher: divide by the sectors per
      track, then divide the track number by the number of heads; the sector
      is made 1-based afterwards. */
  function ToChs(block: nat, sect: nat, heads: nat): (c: Chs)
    requires 0 < sect && 0 < heads
    ensures InTrack(c, sect, heads)
    ensures Linear(c, sect, heads) == block
    ensures c.cyl <= block
  {
    var track := block / sect;
    DivMod(block, sect);
    DivMod(track, heads);
    var c := Chs(track / heads, track % heads, block % sect + 1);
    assert c.cyl * heads + c.head == track;
    c
  }

  lemma {:induction false} DivMod(x: nat, d: nat)
    requires 0 < d
    ensures x == (x / d) * d + x % d
    ensures 0 <= x % d < d
    ensures 0 <= x / d <= x
  {
    var q := x / d;
    assert x == q * d + x % d;
    AtMostMul(q, d);
  }

  lemma {:induction false} AtMostMul(a: nat, d: nat)
    requires 1 <= d
    ensures a <= a * d
  {
  }

  lemma {:induction false} DivModUnique(x: int, d: int, q: int, r: int)
    requires 0 < d && 0 <= r < d && x == q * d + r
    ensures x / d == q && x % d == r
  {
    var q', r' := x / d, x % d;
    assert x == q' * d + r';
    assert (q - q') * d == r' - r;
    if q' < q {
      MulAtLeast(q - q', d);
      assert false;
    } else if q < q' {
      MulAtLeast(q' - q, d);
      assert false;
    }
  }

  lemma {:induction false} MulAtLeast(a: int, d: int)
    requires 1 <= a && 0 < d
    ensures a * d >= d
  {
  }

  /** The translation is onto the in-track addresses: every cylinder/head/
      sector triple with an in-range head and sector is what `ToChs` yields
      for the linear sector it denotes. */
  lemma {:induction false} ToChsOfLinear(c: Chs, sect: nat, heads: nat)
    requires 0 < sect && 0 < heads && InTrack(c, sect, heads)
    ensures Linear(c, sect, heads) >= 0
    ensures ToChs(Linear(c, sect, heads), sect, heads) == c
  {
    var track := c.cyl * heads + c.head;
    var block := track * sect + (c.sec - 1);
    assert track >= 0;
    assert track * sect >= 0;
    DivModUnique(block, sect, track, c.sec - 1);
    DivModUnique(track, heads, c.cyl, c.head);
  }

  /** A sector inside the whole-disk extent heads·sectors·cylinders lands on
      an existing cylinder. */
  lemma {:induction false} ToChsWithinDisk(block: nat, sect: nat, heads: nat, cyls: nat)
    requires 0 < sect && 0 < heads
    requires block < heads * sect * cyls
    ensures ToChs(block, sect, heads).cyl < cyls
  {
    var c := ToChs(block, sect, heads);
    var track := c.cyl * heads + c.head;
    MulMono(c.cyl * heads, track, sect);
    assert c.cyl * (heads * sect) == c.cyl * heads * sect <= track * sect <= block;
    assert heads * sect * cyls == cyls * (heads * sect);
    MulCancel(c.cyl, cyls, heads * sect);
  }

  lemma {:induction false} MulCancel(a: nat, b: nat, k: nat)
    requires a * k < b * k
    ensures a < b
  {
    if b <= a {
      MulMono(b, a, k);
      assert false;
    }
  }

  lemma {:induction false} MulMono(a: int, b: int, k: nat)
    requires a <= b
    ensures a * k <= b * k
  {
  }
}

=== FILE: protocol.dfy ===
/** The controller command protocol: the status test `win_result`, command
    issue `hd_out`, and the reset sequence `reset_controller`/`reset_hd`.
    Polling loops are reduced to their outcome, carried by a `Probe`. */
module Protocol {
  import opened Words
  import opened Geometry
  import opened Driver

  // Status register bits of the AT controller.
  const ERR_STAT: bv8 := 0x01
  const DRQ_STAT: bv8 := 0x08
  const SEEK_STAT: bv8 := 0x10
  const WRERR_STAT: bv8 := 0x20
  const READY_STAT: bv8 := 0x40
  const BUSY_STAT: bv8 := 0x80

  // Command opcodes.
  const WIN_RESTORE: byte := 0x10
  const WIN_READ: byte := 0x20
  const WIN_WRITE: byte := 0x30
  const WIN_SPECIFY: byte := 0x91

  /** The control byte that pulses the controller reset line. */
  const CTL_RESET: byte := 4

  predicate Has(status: bv8, bit: bv8) {
    status & bit != 0
  }

  /** Outcome of `win_result`: whether the command succeeded, and the port
      reads it made beyond the status register. */
  datatype Verdict = Verdict(ok: bool, events: seq<Event>)

  function WinResult(status: bv8): (v: Verdict)
    ensures v.ok <==> Has(status, READY_STAT) && Has(status, SEEK_STAT)
                      && !Has(status, BUSY_STAT) && !Has(status, WRERR_STAT) && !Has(status, ERR_STAT)
    ensures v.events == [] || v.events == [ReadError]
    ensures v.events == [ReadError] <==> !v.ok && Has(status, ERR_STAT)
  {
    if status & (BUSY_STAT | READY_STAT | WRERR_STAT | SEEK_STAT | ERR_STAT) == READY_STAT | SEEK_STAT then
      Verdict(true, [])
    else if status & 1 != 0 then
      Verdict(false, [ReadError])
    else
      Verdict(false, [])
  }

  /** The drive/head register `0xA0 | (drive << 4) | head`: fixed bits 101,
      the drive bit, the head. */
  function SelectByte(drive: nat, head: nat): (b: byte)
    requires drive <= 1 && head <= 15
    ensures b / 0x20 == 5 && b / 0x10 % 2 == drive && b % 0x10 == head
  {
    SelectBits(drive, head);
    ((0xA0 as bv8) | ((drive as bv8) << 4) | (head as bv8)) as int
  }

  /** The three fields of the drive/head register do not overlap, so the
      OR is a sum. */
  lemma {:induction false} SelectBits(drive: nat, head: nat)
    requires drive <= 1 && head <= 15
    ensures ((0xA0 as bv8) | ((drive as bv8) << 4) | (head as bv8)) as int == 0xA0 + 0x10 * drive + head
  {
    var h := head as bv8;
    assert h & 0xF0 == 0;
    if drive == 0 {
      assert (0xA0 as bv8) | ((0 as bv8) << 4) | h == 0xA0 + h;
    } else {
      assert (0xA0 as bv8) | ((1 as bv8) << 4) | h == 0xB0 + h;
    }
  }

  // How the controller reads the task file back.
  function SelectedDrive(t: Event): nat requires t.TaskFile? { t.select / 0x10 % 2 }
  function SelectedHead(t: Event): nat requires t.TaskFile? { t.select % 0x10 }
  function Cylinder(t: Event): nat requires t.TaskFile? { t.cylLow + 0x100 * t.cylHigh }

  /** The task file hd_out writes: precompensation cylinder / 4, sector
      count, start sector, cylinder low and high byte, drive/head select;
      each register keeps the low byte of what is written to it. */
  function TaskFileFor(info: DriveInfo, drive: nat, nsect: u32, sect: u32, head: nat, cyl: u32): (t: Event)
    requires drive <= 1 && head <= 15
    ensures t.TaskFile?
    ensures t.select / 0x20 == 5 && SelectedDrive(t) == drive && SelectedHead(t) == head
    ensures Cylinder(t) == cyl % 0x1_0000
    ensures t.nsect == nsect % 0x100 && t.sector == sect % 0x100
    ensures t.precomp == info.wpcom / 4 % 0x100
  {
    TaskFile(Lo8(info.wpcom / 4), Lo8(nsect), Lo8(sect), Lo8(cyl), Lo8(cyl / 0x100), SelectByte(drive, head))
  }

  /** The four events of a command issue. */
  lemma {:induction false} IssueEvents(h: Handler, c: byte, t: Event, cmd: byte)
    requires h != Unarmed && t.TaskFile?
    ensures var ev := [Arm(h), Ctl(c), t, Cmd(cmd)];
            WellArmed(ev) && Commands(ev) == [cmd] && Pushed(ev) == [] && Pulled(ev) == []
  {
    var ev := [Arm(h), Ctl(c), t, Cmd(cmd)];
    assert WellArmed(ev);
    IssueFilters(ev, cmd);
  }

  lemma {:induction false} IssueFilters(ev: seq<Event>, cmd: byte)
    requires |ev| == 4 && ev[3] == Cmd(cmd)
    requires !ev[0].Cmd? && !ev[1].Cmd? && !ev[2].Cmd?
    requires forall i :: 0 <= i < 4 ==> !ev[i].DataIn? && !ev[i].DataOut?
    ensures Commands(ev) == [cmd] && Pushed(ev) == [] && Pulled(ev) == []
  {
    NoData(ev);
    var e1, e2, e3 := ev[1..], ev[2..], ev[3..];
    assert e1[1..] == e2 && e2[1..] == e3 && e3[1..] == [];
    assert Commands(e3) == [cmd];
    assert Commands(e2) == [cmd];
    assert Commands(e1) == [cmd];
  }

  /** hd_out: refuse an impossible drive or head, wait for the controller,
      record the completion handler, then write the control byte, the task
      file and last the opcode. */
  function HdOut(s: Session, drive: u32, nsect: u32, sect: u32, head: u32, cyl: u32,
                 cmd: byte, h: Handler, ready: bool): (r: Out)
    requires s.reg.Valid() && h != Unarmed
    ensures drive > 1 || head > 15 ==> r == Halted(BadSector, [])
    ensures drive <= 1 && head <= 15 && !ready ==> r == Halted(NotReady, [])
    ensures drive <= 1 && head <= 15 && ready ==>
      && r.Run? && r.s == s.(handler := h)
      && r.events == [Arm(h), Ctl(s.reg.info[drive].ctl),
                      TaskFileFor(s.reg.info[drive], drive, nsect, sect, head, cyl), Cmd(cmd)]
    ensures WellArmed(r.events)
    ensures Commands(r.events) == if r.Run? then [cmd] else []
    ensures Pushed(r.events) == [] && Pulled(r.events) == []
  {
    if drive > 1 || head > 15 then Halted(BadSector, [])
    else if !ready then Halted(NotReady, [])
    else
      var info := s.reg.info[drive];
      var t := TaskFileFor(info, drive, nsect, sect, head, cyl);
      IssueEvents(h, info.ctl, t, cmd);
      Run(s.(handler := h), [Arm(h), Ctl(info.ctl), t, Cmd(cmd)])
  }

  /** reset_controller: pulse the reset bit, restore drive 0's control bits
      (`ctl & 0x0f`), then check that the drive settled and that the error
      register reads 1 ("no error"); failures are only logged. */
  function ResetController(s: Session, p: Probe): (ev: seq<Event>)
    requires s.reg.Valid()
    ensures |ev| >= 3 && ev[0] == Ctl(CTL_RESET) && ev[1] == Ctl(s.reg.info[0].ctl % 0x10)
    ensures Commands(ev) == [] && WellArmed(ev)
  {
    var pulse, restore := Ctl(CTL_RESET), Ctl(s.reg.info[0].ctl % 0x10);
    var failed := Log(ResetFailed(p.errorReg));
    var ev :=
      if p.settled && p.errorReg == 1 then [pulse, restore, ReadError]
      else if p.settled then [pulse, restore, ReadError, failed]
      else if p.errorReg == 1 then [pulse, restore, Log(TimesOut), Log(StillBusy), ReadError]
      else [pulse, restore, Log(TimesOut), Log(StillBusy), ReadError, failed];
    NoCommands(ev);
    ev
  }

  /** What reset_controller reports: the error register is always read;
      drive_busy's "times out" and then "still busy" are logged iff the
      drive did not settle, and "reset failed" iff the error register does
      not read 1. */
  lemma {:induction false} ResetReports(s: Session, p: Probe)
    requires s.reg.Valid()
    ensures ReadError in ResetController(s, p)
    ensures Log(TimesOut) in ResetController(s, p) <==> !p.settled
    ensures Log(StillBusy) in ResetController(s, p) <==> !p.settled
    ensures !p.settled ==> ResetController(s, p)[2..4] == [Log(TimesOut), Log(StillBusy)]
    ensures Log(ResetFailed(p.errorReg)) in ResetController(s, p) <==> p.errorReg != 1
  {
  }

  /** `head - 1` computed in `unsigned int`: zero heads wraps around. */
  function LastHead(heads: byte): (r: u32)
    ensures heads >= 1 ==> r == heads - 1
    ensures heads == 0 ==> r == TWO32 - 1
  {
    Dec(heads)
  }

  /** reset_hd: reset the controller, then SPECIFY the drive's geometry
      (sector count = sectors per track, head = heads-1) with `recal_intr`
      as completion handler. */
  function ResetHd(s: Session, drive: nat, p: Probe): (r: Out)
    requires s.reg.Valid() && drive < MAX_HD
    ensures WellArmed(r.events)
    ensures |r.events| >= 3 && r.events[0] == Ctl(CTL_RESET)
    ensures Commands(r.events) == if r.Run? then [WIN_SPECIFY] else []
    ensures r.Run? ==> r.s == s.(handler := OnRecal)
    ensures var heads := s.reg.info[drive].head;
            (heads == 0 || heads > 16 ==> r.Halted? && r.why == BadSector)
            && (1 <= heads <= 16 ==> (r.Run? <==> p.ready) && (r.Halted? ==> r.why == NotReady))
  {
    var info := s.reg.info[drive];
    var pre := ResetController(s, p);
    match HdOut(s, drive, info.sect, info.sect, LastHead(info.head), info.cyl, WIN_SPECIFY, OnRecal, p.ready)
    case Halted(why, _) => Halted(why, pre)
    case Run(s1, e) =>
      PrependQuiet(pre, e);
      Run(s1, pre + e)
  }

  /** When reset_hd gets to issue SPECIFY, the task file carries the
      drive's sectors per track as both count and sector, heads - 1 as the
      head and its cylinder count. */
  lemma {:induction false} ResetHdSpecifies(s: Session, drive: nat, p: Probe)
    requires s.reg.Valid() && drive < MAX_HD
    ensures var r, info := ResetHd(s, drive, p), s.reg.info[drive];
      r.Run? ==> r.events[|r.events| - 2] == TaskFileFor(info, drive, info.sect, info.sect, info.head - 1, info.cyl)
  {
    var info, pre := s.reg.info[drive], ResetController(s, p);
    var o := HdOut(s, drive, info.sect, info.sect, LastHead(info.head), info.cyl, WIN_SPECIFY, OnRecal, p.ready);
    if ResetHd(s, drive, p).Run? {
      assert LastHead(info.head) == info.head - 1;
      assert ResetHd(s, drive, p).events == pre + o.events;
      SecondToLast(pre, o.events);
    }
  }

  lemma {:induction false} SecondToLast(pre: seq<Event>, ev: seq<Event>)
    requires |ev| == 4
    ensures (pre + ev)[|pre + ev| - 2] == ev[2]
  {
  }

  /** Events that issue no command keep a well-armed trace well armed. */
  lemma {:induction false} PrependQuiet(pre: seq<Event>, ev: seq<Event>)
    requires WellArmed(pre) && Commands(pre) == [] && WellArmed(ev)
    ensures WellArmed(pre + ev) && Commands(pre + ev) == Commands(ev)
  {
    WellArmedAppend(pre, ev);
    FiltersAppend(pre, ev);
  }
}

=== FILE: setup.dfy ===
/** The one-time bootstrap `sys_setup`: read the two 16-byte BIOS drive
    records, set the whole-disk extents, take the drive count from the CMOS
    nibbles, and fill the partition slots from each drive's MBR table. */
module Setup {
  import opened Words
  import opened Geometry
  import opened Driver

  const RECORD_BYTES: nat := 16
  /** Offset of the four 16-byte partition entries in sector 0. */
  const TABLE_AT: nat := 0x1BE
  const ENTRY_BYTES: nat := 16
  /** What the buffer cache returns for one block. */
  const BLOCK_SIZE: nat := 1024

  datatype SetupResult =
    | AlreadyCalled                    // a second call: returns -1
    | SetupHalt(why: Halt)             // panic
    | Configured(reg: Registry)        // returns 0

  /** What a call leaves behind: its outcome, the once-only guard, which
      every call clears before looking at the hardware, and what it printed
      on the way. */
  datatype SetupCall = SetupCall(callable: bool, result: SetupResult, log: seq<Msg>)

  /** One drive's BIOS record: cylinders (16 bits at 0), heads (2),
      write-precompensation cylinder (16 bits at 5), control byte (8),
      landing zone (16 bits at 12), sectors per track (14). */
  function ParseDrive(bios: seq<byte>, drive: nat): (d: DriveInfo)
    requires |bios| == MAX_HD * RECORD_BYTES && drive < MAX_HD
  {
    var at := RECORD_BYTES * drive;
    DriveInfo(bios[at + 2], bios[at + 14], Le16(bios, at), Le16(bios, at + 5), Le16(bios, at + 12), bios[at + 8])
  }

  /** Each drive's parameters come from its own 16 bytes only. */
  lemma {:induction false} ParseDriveOwnRecord(a: seq<byte>, b: seq<byte>, drive: nat)
    requires |a| == |b| == MAX_HD * RECORD_BYTES && drive < MAX_HD
    requires a[RECORD_BYTES * drive .. RECORD_BYTES * (drive + 1)] == b[RECORD_BYTES * drive .. RECORD_BYTES * (drive + 1)]
    ensures ParseDrive(a, drive) == ParseDrive(b, drive)
  {
    var at := RECORD_BYTES * drive;
    forall j | at <= j < at + RECORD_BYTES
      ensures a[j] == b[j]
    {
      assert a[j] == a[at .. at + RECORD_BYTES][j - at];
      assert b[j] == b[at .. at + RECORD_BYTES][j - at];
    }
  }

  /** heads · sectors · cylinders, as the 32-bit multiplication yields it. */
  function WholeDisk(d: DriveInfo): u32 {
    Wrap(d.head * d.sect * d.cyl)
  }

  /** Drives present according to CMOS byte 0x12: the first drive's type is
      in the high nibble, the second's in the low nibble. */
  function CmosDrives(cmos: byte): (n: nat)
    ensures n <= MAX_HD
    ensures n == 0 <==> cmos / 16 == 0
    ensures n == 2 <==> cmos / 16 != 0 && cmos % 16 != 0
  {
    var b := cmos as bv8;
    if b & 0xf0 != 0 then (if b & 0x0f != 0 then 2 else 1) else 0
  }

  /** The loop `for (i = lo; i < hi; i++) hd[i*5] = {0, nr_sects(i)}`. */
  function SetWholeDisks(hd: seq<Extent>, info: seq<DriveInfo>, lo: nat, hi: nat): (r: seq<Extent>)
    requires |hd| == SLOTS * MAX_HD && |info| == MAX_HD && hi <= MAX_HD
    ensures |r| == |hd|
    ensures forall j :: 0 <= j < |r| ==>
      r[j] == (if j % SLOTS == 0 && lo <= j / SLOTS < hi then Extent(0, WholeDisk(info[j / SLOTS])) else hd[j])
    decreases hi - lo
  {
    if lo >= hi then hd
    else SetWholeDisks(hd[SLOTS * lo := Extent(0, WholeDisk(info[lo]))], info, lo + 1, hi)
  }

  /** The loop `for (i = lo; i < 2; i++) hd[i*5] = {0, 0}`. */
  function ClearWholeDisks(hd: seq<Extent>, lo: nat): (r: seq<Extent>)
    requires |hd| == SLOTS * MAX_HD
    ensures |r| == |hd|
    ensures forall j :: 0 <= j < |r| ==>
      r[j] == (if j % SLOTS == 0 && lo <= j / SLOTS then Extent(0, 0) else hd[j])
    decreases MAX_HD - lo
  {
    if lo >= MAX_HD then hd
    else ClearWholeDisks(hd[SLOTS * lo := Extent(0, 0)], lo + 1)
  }

  /** Partition entry `k` (1..4) of a sector-0 image: its start sector and
      sector count are the 32-bit fields at offsets 8 and 12 of the entry. */
  function Entry(b: seq<byte>, k: nat): Extent
    requires |b| == BLOCK_SIZE && 1 <= k <= 4
  {
    var at := TABLE_AT + ENTRY_BYTES * (k - 1);
    Extent(Le32(b, at + 8), Le32(b, at + 12))
  }

  predicate Signed(b: seq<byte>)
    requires |b| == BLOCK_SIZE
  {
    b[510] == 0x55 && b[511] == 0xAA
  }

  /** Copy the four entries of `b` into slots 5·drive+1 .. 5·drive+4. */
  function FillPartitions(hd: seq<Extent>, b: seq<byte>, drive: nat): (r: seq<Extent>)
    requires |hd| == SLOTS * MAX_HD && |b| == BLOCK_SIZE && drive < MAX_HD
    ensures |r| == |hd|
    ensures forall j :: 0 <= j < |r| ==>
      r[j] == (if j / SLOTS == drive && j % SLOTS != 0 then Entry(b, j % SLOTS) else hd[j])
  {
    var base := SLOTS * drive;
    hd[base + 1 := Entry(b, 1)][base + 2 := Entry(b, 2)][base + 3 := Entry(b, 3)][base + 4 := Entry(b, 4)]
  }

  datatype Tables = Filled(hd: seq<Extent>) | Refused(why: Halt)

  /** Usable partition table of drive `d`: the block was read and signed. */
  predicate TableOk(blocks: seq<Option<seq<byte>>>, d: nat)
    requires d < |blocks| && (blocks[d].Some? ==> |blocks[d].value| == BLOCK_SIZE)
  {
    blocks[d].Some? && Signed(blocks[d].value)
  }

  predicate BlocksSized(blocks: seq<Option<seq<byte>>>) {
    |blocks| == MAX_HD && forall d :: 0 <= d < MAX_HD && blocks[d].Some? ==> |blocks[d].value| == BLOCK_SIZE
  }

  /** The loop over drives `drive .. nr-1` reading each partition table;
      an unreadable block or a missing signature halts. */
  function ReadTables(hd: seq<Extent>, blocks: seq<Option<seq<byte>>>, drive: nat, nr: nat): (r: Tables)
    requires |hd| == SLOTS * MAX_HD && BlocksSized(blocks) && nr <= MAX_HD
    ensures r.Filled? <==> forall d :: drive <= d < nr ==> TableOk(blocks, d)
    ensures r.Refused? ==>
      exists d :: (&& drive <= d < nr && !TableOk(blocks, d)
                   && (forall e :: drive <= e < d ==> TableOk(blocks, e))
                   && r.why == (if blocks[d].None? then Unreadable(d) else BadTable(d)))
    ensures r.Filled? ==> |r.hd| == |hd| && forall j :: 0 <= j < |hd| ==>
      r.hd[j] == (if j % SLOTS != 0 && drive <= j / SLOTS < nr && blocks[j / SLOTS].Some? then Entry(blocks[j / SLOTS].value, j % SLOTS) else hd[j])
    decreases nr - drive
  {
    if drive >= nr then Filled(hd)
    else match blocks[drive]
      case None =>
        assert !TableOk(blocks, drive);
        Refused(Unreadable(drive))
      case Some(b) =>
        if b[510] != 0x55 || b[511] != 0xAA then
          assert !TableOk(blocks, drive);
          Refused(BadTable(drive))
        else ReadTables(FillPartitions(hd, b, drive), blocks, drive + 1, nr)
  }

  /** sys_setup. `callable` is the once-only guard, `bios` the two drive
      records, `cmos` CMOS byte 0x12, `blocks[d]` what reading block 0 of
      drive d returns (None when the read fails). */
  function Setup(callable: bool, bios: seq<byte>, cmos: byte, blocks: seq<Option<seq<byte>>>): (r: SetupCall)
    requires |bios| == MAX_HD * RECORD_BYTES && BlocksSized(blocks)
    ensures !r.callable
    ensures !callable <==> r.result == AlreadyCalled
    ensures callable ==>
      (r.result.Configured? <==> forall d :: 0 <= d < CmosDrives(cmos) ==> TableOk(blocks, d))
    ensures r.result.SetupHalt? ==>
      exists d :: (&& 0 <= d < CmosDrives(cmos) && !TableOk(blocks, d)
                   && (forall e :: 0 <= e < d ==> TableOk(blocks, e))
                   && r.result.why == (if blocks[d].None? then Unreadable(d) else BadTable(d)))
    ensures r.result.Configured? ==>
      && r.result.reg.Valid() && r.result.reg.nrHd == CmosDrives(cmos)
      && r.result.reg.info == [ParseDrive(bios, 0), ParseDrive(bios, 1)]
    ensures r.result.Configured? ==> WholeDisksSized(r.result.reg) && PartitionsCopied(r.result.reg, blocks)
    ensures r.log == (if r.result.Configured? && CmosDrives(cmos) > 0 then [TablesOk(CmosDrives(cmos) > 1)] else [])
  {
    if !callable then SetupCall(false, AlreadyCalled, [])
    else
      var info := [ParseDrive(bios, 0), ParseDrive(bios, 1)];
      var fromBios := BiosDrives(info);
      var hd0 := SetWholeDisks(Empty(), info, 0, fromBios);
      var nr := CmosDrives(cmos);
      var hd1 := ClearWholeDisks(hd0, nr);
      match ReadTables(hd1, blocks, 0, nr)
      case Refused(why) => SetupCall(false, SetupHalt(why), [])
      case Filled(hd') =>
        ClearedSlots(info, fromBios, nr, hd1);
        PartitionSlots(blocks, nr, hd1, hd');
        Configure(info, blocks, nr, hd1, hd');
        SetupCall(false, Configured(Registry(info, hd', nr)), if nr > 0 then [TablesOk(nr > 1)] else [])
  }

  /** Once only: whatever the first call did, a second call on the guard it
      leaves behind changes nothing and reports -1. */
  lemma {:induction false} SetupOnce(callable: bool, bios: seq<byte>, cmos: byte, blocks: seq<Option<seq<byte>>>,
                                     bios': seq<byte>, cmos': byte, blocks': seq<Option<seq<byte>>>)
    requires |bios| == MAX_HD * RECORD_BYTES && BlocksSized(blocks)
    requires |bios'| == MAX_HD * RECORD_BYTES && BlocksSized(blocks')
    ensures var first := Setup(callable, bios, cmos, blocks);
      Setup(first.callable, bios', cmos', blocks') == SetupCall(false, AlreadyCalled, [])
  {
    var first := Setup(callable, bios, cmos, blocks);
    assert !first.callable;
  }

  /** Drives the BIOS table reports: setup zeroes the second record when
      there is no second drive, so a zero cylinder count means absent. */
  function BiosDrives(info: seq<DriveInfo>): (n: nat)
    requires |info| == MAX_HD
    ensures 1 <= n <= MAX_HD
    ensures n == 2 <==> info[1].cyl != 0
  {
    if info[1].cyl != 0 then 2 else 1
  }

  /** Whole-disk slots: sized heads·sectors·cylinders for each drive that
      both the BIOS table and CMOS report, empty otherwise. */
  predicate WholeDisksSized(reg: Registry)
    requires reg.Valid()
  {
    forall d :: 0 <= d < MAX_HD ==>
      Slot(reg.hd, d, 0) == (if d < reg.nrHd && d < BiosDrives(reg.info)
                             then Extent(0, WholeDisk(reg.info[d])) else Extent(0, 0))
  }

  /** Partition slots: copied from the signed table of each present drive,
      empty for absent drives. */
  predicate PartitionsCopied(reg: Registry, blocks: seq<Option<seq<byte>>>)
    requires reg.Valid() && BlocksSized(blocks)
  {
    TablesCopied(reg.hd, reg.nrHd, blocks)
    && forall d, k :: reg.nrHd <= d < MAX_HD && 1 <= k < SLOTS ==> Slot(reg.hd, d, k) == Extent(0, 0)
  }

  /** The partition slots of drives `0 .. nr-1` hold the entries of their
      signed tables. */
  predicate TablesCopied(hd: seq<Extent>, nr: nat, blocks: seq<Option<seq<byte>>>)
    requires |hd| == SLOTS * MAX_HD && nr <= MAX_HD && BlocksSized(blocks)
  {
    forall d, k :: 0 <= d < nr && 1 <= k < SLOTS ==> SlotCopied(hd, blocks, d, k)
  }

  /** Partition slot `k` of drive `d` holds entry `k` of its signed table. */
  predicate SlotCopied(hd: seq<Extent>, blocks: seq<Option<seq<byte>>>, d: nat, k: nat)
    requires |hd| == SLOTS * MAX_HD && BlocksSized(blocks) && d < MAX_HD && 1 <= k < SLOTS
  {
    blocks[d].Some? && Signed(blocks[d].value) && Slot(hd, d, k) == Entry(blocks[d].value, k)
  }

  /** The partition table before any slot is set. */
  function Empty(): (hd: seq<Extent>)
    ensures |hd| == SLOTS * MAX_HD
    ensures forall j :: 0 <= j < |hd| ==> hd[j] == Extent(0, 0)
  {
    seq(SLOTS * MAX_HD, _ => Extent(0, 0))
  }

  lemma {:induction false} SlotIndex(d: nat, k: nat)
    requires k < SLOTS
    ensures (SLOTS * d + k) / SLOTS == d && (SLOTS * d + k) % SLOTS == k
  {
  }

  /** Whole-disk slots after the BIOS loop and the CMOS clearing loop;
      the clearing loops never touch a partition slot. */
  lemma {:induction false} ClearedSlots(info: seq<DriveInfo>, fromBios: nat, nr: nat, hd: seq<Extent>)
    requires |info| == MAX_HD && fromBios <= MAX_HD && nr <= MAX_HD
    requires hd == ClearWholeDisks(SetWholeDisks(Empty(), info, 0, fromBios), nr)
    ensures forall d :: 0 <= d < MAX_HD ==>
      Slot(hd, d, 0) == (if d < nr && d < fromBios then Extent(0, WholeDisk(info[d])) else Extent(0, 0))
    ensures forall d, k :: 0 <= d < MAX_HD && 1 <= k < SLOTS ==> Slot(hd, d, k) == Extent(0, 0)
  {
    forall d, k | 0 <= d < MAX_HD && 0 <= k < SLOTS
      ensures Slot(hd, d, k) == if k == 0 && d < nr && d < fromBios then Extent(0, WholeDisk(info[d])) else Extent(0, 0)
    {
      SlotIndex(d, k);
    }
  }

  /** The partition loop leaves every whole-disk slot alone, fills the
      partition slots of the drives it visits and no others. */
  lemma {:induction false} PartitionSlots(blocks: seq<Option<seq<byte>>>, nr: nat, hd1: seq<Extent>, hd: seq<Extent>)
    requires |hd1| == |hd| == SLOTS * MAX_HD && nr <= MAX_HD && BlocksSized(blocks)
    requires forall d :: 0 <= d < nr ==> TableOk(blocks, d)
    requires forall j :: 0 <= j < |hd1| ==>
      hd[j] == (if j % SLOTS != 0 && 0 <= j / SLOTS < nr && blocks[j / SLOTS].Some?
                then Entry(blocks[j / SLOTS].value, j % SLOTS) else hd1[j])
    ensures forall d :: 0 <= d < MAX_HD ==> Slot(hd, d, 0) == Slot(hd1, d, 0)
    ensures TablesCopied(hd, nr, blocks)
    ensures forall d, k :: nr <= d < MAX_HD && 1 <= k < SLOTS ==> Slot(hd, d, k) == Slot(hd1, d, k)
  {
    forall d | 0 <= d < MAX_HD ensures Slot(hd, d, 0) == Slot(hd1, d, 0) {
      SlotIndex(d, 0);
    }
    forall d, k | 0 <= d < nr && 1 <= k < SLOTS ensures SlotCopied(hd, blocks, d, k) {
      SlotIndex(d, k);
      assert TableOk(blocks, d);
    }
    forall d, k | nr <= d < MAX_HD && 1 <= k < SLOTS ensures Slot(hd, d, k) == Slot(hd1, d, k) {
      SlotIndex(d, k);
    }
  }

  /** What a successful sys_setup leaves in the partition table, put
      together from the two loops' effects on each slot. */
  lemma {:induction false} Configure(info: seq<DriveInfo>, blocks: seq<Option<seq<byte>>>, nr: nat, hd1: seq<Extent>, hd: seq<Extent>)
    requires |info| == MAX_HD && nr <= MAX_HD && BlocksSized(blocks)
    requires |hd1| == |hd| == SLOTS * MAX_HD
    requires forall d :: 0 <= d < MAX_HD ==>
      Slot(hd1, d, 0) == (if d < nr && d < BiosDrives(info) then Extent(0, WholeDisk(info[d])) else Extent(0, 0))
    requires forall d, k :: 0 <= d < MAX_HD && 1 <= k < SLOTS ==> Slot(hd1, d, k) == Extent(0, 0)
    requires forall d :: 0 <= d < MAX_HD ==> Slot(hd, d, 0) == Slot(hd1, d, 0)
    requires TablesCopied(hd, nr, blocks)
    requires forall d, k :: nr <= d < MAX_HD && 1 <= k < SLOTS ==> Slot(hd, d, k) == Slot(hd1, d, k)
    ensures Registry(info, hd, nr).Valid()
    ensures WholeDisksSized(Registry(info, hd, nr)) && PartitionsCopied(Registry(info, hd, nr), blocks)
  {
    var reg := Registry(info, hd, nr);
    forall d, k | reg.nrHd <= d < MAX_HD && 1 <= k < SLOTS
      ensures Slot(reg.hd, d, k) == Extent(0, 0)
    {
      assert Slot(hd, d, k) == Slot(hd1, d, k);
    }
    forall d | 0 <= d < MAX_HD
      ensures Slot(reg.hd, d, 0) == (if d < reg.nrHd && d < BiosDrives(reg.info)
                                     then Extent(0, WholeDisk(reg.info[d])) else Extent(0, 0))
    {
      assert Slot(hd, d, 0) == Slot(hd1, d, 0);
    }
  }
}

=== FILE: transfers.dfy ===
/** Whole transfers: a request followed from dispatch through every
    completion interrupt, and the start-up cycle of reset and
    recalibration that precedes the first transfer. */
module Transfers {
  import opened Words
  import opened Geometry
  import opened Driver
  import opened Protocol
  import opened Dispatcher
  import opened Completion

  /** Every interrupt reports a completed command. */
  predicate AllGood(irqs: seq<Irq>) {
    forall i :: 0 <= i < |irqs| ==> WinResult(irqs[i].status).ok
  }

  lemma {:induction false} AllGoodTail(irqs: seq<Irq>)
    requires irqs != [] && AllGood(irqs)
    ensures WinResult(irqs[0].status).ok && AllGood(irqs[1..])
  {
    forall i | 0 <= i < |irqs[1..]| ensures WinResult(irqs[1..][i].status).ok {
      assert irqs[1..][i] == irqs[i + 1];
    }
  }

  /** A transfer in progress: a single queued request with `n` sectors
      left and completion handler `h` armed. */
  predicate InFlight(s: Session, h: Handler, n: nat) {
    s.reg.Valid() && |s.queue| == 1 && s.handler == h && s.queue[0].nrSectors == n
  }

  /** Unfolding of a run of interrupts whose first one returns. */
  lemma {:induction false} InterruptsStep(s: Session, irqs: seq<Irq>, s1: Session, e1: seq<Event>)
    requires s.reg.Valid() && irqs != [] && Interrupt(s, irqs[0].status, irqs[0].hw) == Run(s1, e1)
    ensures Interrupts(s, irqs) == Prepend(e1, Interrupts(s1, irqs[1..]))
  {
  }

  /** Replacing the only queued request. */
  lemma {:induction false} SoleHead(s: Session, req: Request)
    requires |s.queue| == 1
    ensures s.(queue := [req] + s.queue[1..]) == s.(queue := [req])
  {
    assert s.queue[1..] == [];
  }

  // ---------------------------------------------------------------------
  // Writes

  /** One good write_intr with sectors still left: the next sector is
      pushed and write_intr re-armed; the requests behind the head are
      untouched. */
  lemma {:induction false} WriteStep(s: Session, st: bv8, hw: nat -> Probe)
    requires s.reg.Valid() && s.queue != [] && s.handler == OnWrite
    requires s.queue[0].nrSectors != 1 && WinResult(st).ok
    ensures Interrupt(s, st, hw)
            == Run(s.(queue := [WriteNext(s.queue[0])] + s.queue[1..]),
                   [Arm(OnWrite), DataOut(s.queue[0].buffer + SECTOR_BYTES)])
  {
    var q := [WriteNext(s.queue[0])] + s.queue[1..];
    assert s.(handler := Unarmed).(handler := OnWrite, queue := q) == s.(queue := q);
  }

  /** The good write_intr for the last sector ends the request, and the
      dispatcher finds the queue empty. */
  lemma {:induction false} WriteLast(s: Session, st: bv8, hw: nat -> Probe)
    requires InFlight(s, OnWrite, 1) && WinResult(st).ok
    ensures Interrupt(s, st, hw) == Run(s.(handler := Unarmed, queue := []), [Ended(s.queue[0].id, true)])
  {
  }

  /** What one pushed sector in front of the rest of a write burst adds. */
  lemma {:induction false} PushShape(buf: nat, n: nat, id: nat, rest: Out)
    requires n >= 1 && Finished(rest, Strides(buf + SECTOR_BYTES, n - 1), [], id)
    ensures Finished(Prepend([Arm(OnWrite), DataOut(buf)], rest), Strides(buf, n), [], id)
  {
    var ev := [Arm(OnWrite), DataOut(buf)];
    FiltersAppend(ev, rest.events);
    assert ev[1..][1..] == [];
    assert Pushed(ev) == [buf];
    assert Pulled(ev) == [] && Commands(ev) == [];
  }

  /** The closing interrupt of a write burst, as a whole run. */
  lemma {:induction false} WriteClose(s: Session, irqs: seq<Irq>)
    requires InFlight(s, OnWrite, 1) && |irqs| == 1 && WinResult(irqs[0].status).ok
    ensures Interrupts(s, irqs) == Run(s.(handler := Unarmed, queue := []), [Ended(s.queue[0].id, true)])
  {
    var s1 := s.(handler := Unarmed, queue := []);
    WriteLast(s, irqs[0].status, irqs[0].hw);
    InterruptsStep(s, irqs, s1, [Ended(s.queue[0].id, true)]);
    assert Interrupts(s1, irqs[1..]) == Run(s1, []);
  }

  lemma {:induction false} QuietEnd(buf: nat, id: nat)
    ensures var ev := [Ended(id, true)];
      (Pushed(ev), Pulled(ev), Commands(ev), Last(ev)) == (Strides(buf, 0), [], [], Some(Ended(id, true)))
  {
    NoCommands([Ended(id, true)]);
    NoData([Ended(id, true)]);
  }

  /** The closing interrupt of a write burst. */
  lemma {:induction false} WriteEnd(s: Session, irqs: seq<Irq>)
    requires InFlight(s, OnWrite, 1) && |irqs| == 1 && WinResult(irqs[0].status).ok
    ensures Finished(Interrupts(s, irqs), Strides(s.queue[0].buffer + SECTOR_BYTES, 0), [], s.queue[0].id)
  {
    WriteClose(s, irqs);
    QuietEnd(s.queue[0].buffer + SECTOR_BYTES, s.queue[0].id);
  }

  /** A good interrupt with sectors still left, as the first of a run: it
      pushes the next sector, re-arms write_intr and leaves the rest of the
      run to the advanced request, whatever is queued behind it. */
  lemma {:induction false} WriteOn(s: Session, irqs: seq<Irq>)
    requires s.reg.Valid() && s.queue != [] && s.handler == OnWrite && s.queue[0].nrSectors != 1
    requires irqs != [] && WinResult(irqs[0].status).ok
    ensures Interrupts(s, irqs)
            == Prepend([Arm(OnWrite), DataOut(s.queue[0].buffer + SECTOR_BYTES)],
                       Interrupts(s.(queue := [WriteNext(s.queue[0])] + s.queue[1..]), irqs[1..]))
  {
    WriteStep(s, irqs[0].status, irqs[0].hw);
    InterruptsStep(s, irqs, s.(queue := [WriteNext(s.queue[0])] + s.queue[1..]),
                   [Arm(OnWrite), DataOut(s.queue[0].buffer + SECTOR_BYTES)]);
  }

  /** `WriteOn` for a request alone in the queue. */
  lemma {:induction false} WriteOnSole(s: Session, irqs: seq<Irq>)
    requires InFlight(s, OnWrite, |irqs|) && |irqs| > 1 && WinResult(irqs[0].status).ok
    ensures Interrupts(s, irqs)
            == Prepend([Arm(OnWrite), DataOut(s.queue[0].buffer + SECTOR_BYTES)], Interrupts(s.(queue := [WriteNext(s.queue[0])]), irqs[1..]))
  {
    SoleHead(s, WriteNext(s.queue[0]));
    WriteStep(s, irqs[0].status, irqs[0].hw);
    InterruptsStep(s, irqs, s.(queue := [WriteNext(s.queue[0])]), [Arm(OnWrite), DataOut(s.queue[0].buffer + SECTOR_BYTES)]);
  }

  /** A good interrupt in front of a finished write burst finishes the
      longer burst, which pushes one sector more. */
  lemma {:induction false} WriteGrow(s: Session, irqs: seq<Irq>)
    requires InFlight(s, OnWrite, |irqs|) && |irqs| > 1 && WinResult(irqs[0].status).ok
    requires Finished(Interrupts(s.(queue := [WriteNext(s.queue[0])]), irqs[1..]),
                      Strides(s.queue[0].buffer + SECTOR_BYTES + SECTOR_BYTES, |irqs| - 2), [], s.queue[0].id)
    ensures Finished(Interrupts(s, irqs), Strides(s.queue[0].buffer + SECTOR_BYTES, |irqs| - 1), [],
                     s.queue[0].id)
  {
    WriteOnSole(s, irqs);
    PushShape(s.queue[0].buffer + SECTOR_BYTES, |irqs| - 1, s.queue[0].id,
              Interrupts(s.(queue := [WriteNext(s.queue[0])]), irqs[1..]));
  }

  /** A write armed with `write_intr` and `n` sectors left, of which the
      first is already in the controller, finishes after `n` good
      interrupts: each but the last pushes the next 512 bytes, the last
      ends the request successfully. */
  lemma {:induction false} WriteBurst(s: Session, irqs: seq<Irq>)
    requires InFlight(s, OnWrite, |irqs|) && |irqs| >= 1 && AllGood(irqs)
    ensures Finished(Interrupts(s, irqs), Strides(s.queue[0].buffer + SECTOR_BYTES, |irqs| - 1), [],
                     s.queue[0].id)
    decreases |irqs|
  {
    AllGoodTail(irqs);
    if |irqs| == 1 {
      WriteEnd(s, irqs);
    } else {
      var req := s.queue[0];
      var s1 := s.(queue := [WriteNext(req)]);
      var n := |irqs| - 2;
      WriteBurst(s1, irqs[1..]);
      assert s1.queue[0].buffer + SECTOR_BYTES == req.buffer + SECTOR_BYTES + SECTOR_BYTES;
      assert (|irqs[1..]| - 1, s1.queue[0].id) == (n, req.id);
      WriteGrow(s, irqs);
    }
  }

  // ---------------------------------------------------------------------
  // Reads

  /** One good read_intr with sectors still left: the sector is read, the
      error count cleared and read_intr re-armed; the requests behind the
      head are untouched. */
  lemma {:induction false} ReadStep(s: Session, st: bv8, hw: nat -> Probe)
    requires s.reg.Valid() && s.queue != [] && s.handler == OnRead
    requires s.queue[0].nrSectors != 1 && WinResult(st).ok
    ensures Interrupt(s, st, hw)
            == Run(s.(queue := [ReadNext(s.queue[0])] + s.queue[1..]), [DataIn(s.queue[0].buffer), Arm(OnRead)])
  {
    var q := [ReadNext(s.queue[0])] + s.queue[1..];
    assert s.(handler := Unarmed).(queue := q).(handler := OnRead) == s.(queue := q);
  }

  /** The good read_intr for the last sector reads it, ends the request,
      and the dispatcher finds the queue empty. */
  lemma {:induction false} ReadLast(s: Session, st: bv8, hw: nat -> Probe)
    requires InFlight(s, OnRead, 1) && WinResult(st).ok
    ensures Interrupt(s, st, hw) == Run(s.(handler := Unarmed, queue := []),
                                        [DataIn(s.queue[0].buffer), Ended(s.queue[0].id, true)])
  {
  }

  /** What one pulled sector in front of the rest of a read burst adds. */
  lemma {:induction false} PullShape(buf: nat, n: nat, id: nat, rest: Out)
    requires n >= 1 && Finished(rest, [], Strides(buf + SECTOR_BYTES, n - 1), id)
    ensures Finished(Prepend([DataIn(buf), Arm(OnRead)], rest), [], Strides(buf, n), id)
  {
    var ev := [DataIn(buf), Arm(OnRead)];
    FiltersAppend(ev, rest.events);
    assert ev[1..][1..] == [];
    assert Pulled(ev) == [buf];
    assert Pushed(ev) == [] && Commands(ev) == [];
  }

  /** The closing interrupt of a read burst, as a whole run. */
  lemma {:induction false} ReadClose(s: Session, irqs: seq<Irq>)
    requires InFlight(s, OnRead, 1) && |irqs| == 1 && WinResult(irqs[0].status).ok
    ensures Interrupts(s, irqs)
            == Run(s.(handler := Unarmed, queue := []), [DataIn(s.queue[0].buffer), Ended(s.queue[0].id, true)])
  {
    var s1 := s.(handler := Unarmed, queue := []);
    ReadLast(s, irqs[0].status, irqs[0].hw);
    InterruptsStep(s, irqs, s1, [DataIn(s.queue[0].buffer), Ended(s.queue[0].id, true)]);
    assert Interrupts(s1, irqs[1..]) == Run(s1, []);
  }

  lemma {:induction false} PullEnd(buf: nat, id: nat)
    ensures var ev := [DataIn(buf), Ended(id, true)];
      (Pushed(ev), Pulled(ev), Commands(ev), Last(ev)) == ([], Strides(buf, 1), [], Some(Ended(id, true)))
  {
    var ev := [DataIn(buf), Ended(id, true)];
    assert ev[1..] == [Ended(id, true)];
    NoCommands(ev);
    NoData(ev[1..]);
    assert Pulled(ev) == [buf];
  }

  /** The closing interrupt of a read burst. */
  lemma {:induction false} ReadEnd(s: Session, irqs: seq<Irq>)
    requires InFlight(s, OnRead, 1) && |irqs| == 1 && WinResult(irqs[0].status).ok
    ensures Finished(Interrupts(s, irqs), [], Strides(s.queue[0].buffer, 1), s.queue[0].id)
  {
    ReadClose(s, irqs);
    PullEnd(s.queue[0].buffer, s.queue[0].id);
  }

  /** A good interrupt with sectors still left, as the first of a run: it
      reads one sector, re-arms read_intr and leaves the rest of the run to
      the advanced request, whatever is queued behind it. */
  lemma {:induction false} ReadOn(s: Session, irqs: seq<Irq>)
    requires s.reg.Valid() && s.queue != [] && s.handler == OnRead && s.queue[0].nrSectors != 1
    requires irqs != [] && WinResult(irqs[0].status).ok
    ensures Interrupts(s, irqs)
            == Prepend([DataIn(s.queue[0].buffer), Arm(OnRead)],
                       Interrupts(s.(queue := [ReadNext(s.queue[0])] + s.queue[1..]), irqs[1..]))
  {
    ReadStep(s, irqs[0].status, irqs[0].hw);
    InterruptsStep(s, irqs, s.(queue := [ReadNext(s.queue[0])] + s.queue[1..]),
                   [DataIn(s.queue[0].buffer), Arm(OnRead)]);
  }

  /** `ReadOn` for a request alone in the queue. */
  lemma {:induction false} ReadOnSole(s: Session, irqs: seq<Irq>)
    requires InFlight(s, OnRead, |irqs|) && |irqs| > 1 && WinResult(irqs[0].status).ok
    ensures Interrupts(s, irqs)
            == Prepend([DataIn(s.queue[0].buffer), Arm(OnRead)], Interrupts(s.(queue := [ReadNext(s.queue[0])]), irqs[1..]))
  {
    SoleHead(s, ReadNext(s.queue[0]));
    ReadStep(s, irqs[0].status, irqs[0].hw);
    InterruptsStep(s, irqs, s.(queue := [ReadNext(s.queue[0])]), [DataIn(s.queue[0].buffer), Arm(OnRead)]);
  }

  /** A good interrupt in front of a finished read burst finishes the
      longer burst, one sector earlier in the buffer. */
  lemma {:induction false} ReadGrow(s: Session, irqs: seq<Irq>)
    requires InFlight(s, OnRead, |irqs|) && |irqs| > 1 && WinResult(irqs[0].status).ok
    requires Finished(Interrupts(s.(queue := [ReadNext(s.queue[0])]), irqs[1..]), [],
                      Strides(s.queue[0].buffer + SECTOR_BYTES, |irqs| - 1), s.queue[0].id)
    ensures Finished(Interrupts(s, irqs), [], Strides(s.queue[0].buffer, |irqs|), s.queue[0].id)
  {
    ReadOnSole(s, irqs);
    PullShape(s.queue[0].buffer, |irqs|, s.queue[0].id,
              Interrupts(s.(queue := [ReadNext(s.queue[0])]), irqs[1..]));
  }

  /** A read armed with `read_intr` and `n` sectors left finishes after `n`
      good interrupts, each reading the next 512 bytes into the buffer; the
      last ends the request successfully. */
  lemma {:induction false} ReadBurst(s: Session, irqs: seq<Irq>)
    requires InFlight(s, OnRead, |irqs|) && |irqs| >= 1 && AllGood(irqs)
    ensures Finished(Interrupts(s, irqs), [], Strides(s.queue[0].buffer, |irqs|), s.queue[0].id)
    decreases |irqs|
  {
    AllGoodTail(irqs);
    if |irqs| == 1 {
      ReadEnd(s, irqs);
    } else {
      var req := s.queue[0];
      var s1 := s.(queue := [ReadNext(req)]);
      var n := |irqs| - 2;
      ReadBurst(s1, irqs[1..]);
      assert s1.queue[0].buffer == req.buffer + SECTOR_BYTES;
      assert (|irqs[1..]|, s1.queue[0].id) == (n + 1, req.id);
      ReadGrow(s, irqs);
    }
  }

  // ---------------------------------------------------------------------
  // Whole requests

  /** A session ready to transfer: sane geometry, no reset or
      recalibration pending, nothing armed, and an accepted head request. */
  predicate Ready(s: Session) {
    && s.reg.Valid() && s.reg.Sane() && !s.reset && !s.recalibrate && s.handler == Unarmed
    && s.queue != [] && Accepted(s.reg, s.queue[0])
  }

  lemma {:induction false} PrependFinished(ev: seq<Event>, rest: Out, pushed: seq<nat>, pulled: seq<nat>, id: nat)
    requires Finished(rest, pushed, pulled, id)
    ensures Served(Prepend(ev, rest), Commands(ev), Pushed(ev) + pushed, Pulled(ev) + pulled, id)
  {
    FiltersAppend(ev, rest.events);
    var all := ev + rest.events;
    assert all[|all| - 1] == rest.events[|rest.events| - 1];
    assert Commands(ev) + [] == Commands(ev);
  }

  /** An accepted request of a sane drive reaches the transfer branch, and
      every address it produces fits hd_out. */
  lemma {:induction false} PassTransfers(s: Session, p: Probe)
    requires Ready(s)
    ensures Locate(s.reg, s.queue[0]).Target?
    ensures Pass(s, p) == Transfer(s, Locate(s.reg, s.queue[0]), p)
  {
    var t := Locate(s.reg, s.queue[0]);
    assert s.queue[0].minor / SLOTS < s.reg.nrHd;
  }

  /** With the controller ready and DRQ asserted, the dispatcher arms
      write_intr, writes the task file for the CHS address of the request,
      issues WIN_WRITE and only then pushes the first sector. */
  lemma {:induction false} WriteDispatched(s: Session, hw: nat -> Probe)
    requires Ready(s) && s.queue[0].op.Write? && hw(0).ready && hw(0).drq
    ensures var o := Dispatch(s, hw, 0);
      var req, t := s.queue[0], Locate(s.reg, s.queue[0]);
      && t.Target? && t.chs.head <= 15
      && o.Run? && o.s == s.(handler := OnWrite) && |o.events| == 5 && o.events[0] == Arm(OnWrite)
      && o.events[2] == TaskFileFor(s.reg.info[t.drive], t.drive, req.nrSectors, t.chs.sec, t.chs.head, t.chs.cyl)
      && o.events[3] == Cmd(WIN_WRITE) && o.events[4] == DataOut(req.buffer)
      && (Commands(o.events), Pushed(o.events), Pulled(o.events)) == ([WIN_WRITE], [req.buffer], [])
  {
    PassTransfers(s, hw(0));
    var pr := Transfer(s, Locate(s.reg, s.queue[0]), hw(0));
    assert pr.Stop? && Dispatch(s, hw, 0) == pr.out;
  }

  /** With the controller ready, the dispatcher writes the task file for
      the CHS address of the request and WIN_READ, and arms read_intr. */
  lemma {:induction false} ReadDispatched(s: Session, hw: nat -> Probe)
    requires Ready(s) && s.queue[0].op.Read? && hw(0).ready
    ensures var o := Dispatch(s, hw, 0);
      var req, t := s.queue[0], Locate(s.reg, s.queue[0]);
      && t.Target? && t.chs.head <= 15
      && o.Run? && o.s == s.(handler := OnRead) && |o.events| == 4
      && o.events[2] == TaskFileFor(s.reg.info[t.drive], t.drive, req.nrSectors, t.chs.sec, t.chs.head, t.chs.cyl)
      && (Commands(o.events), Pushed(o.events), Pulled(o.events)) == ([WIN_READ], [], [])
  {
    PassTransfers(s, hw(0));
    var pr := Transfer(s, Locate(s.reg, s.queue[0]), hw(0));
    assert pr.Stop? && Dispatch(s, hw, 0) == pr.out;
  }

  /** The dispatch of a write followed by its burst of good interrupts. */
  lemma {:induction false} WriteServed(o: Out, irqs: seq<Irq>, req: Request)
    requires o.Run? && InFlight(o.s, OnWrite, |irqs|) && |irqs| >= 1 && AllGood(irqs)
    requires o.s.queue[0] == req
    requires (Commands(o.events), Pushed(o.events), Pulled(o.events)) == ([WIN_WRITE], [req.buffer], [])
    ensures Served(Prepend(o.events, Interrupts(o.s, irqs)), [WIN_WRITE], Strides(req.buffer, |irqs|), [], req.id)
  {
    WriteBurst(o.s, irqs);
    var tail := Strides(req.buffer + SECTOR_BYTES, |irqs| - 1);
    PrependFinished(o.events, Interrupts(o.s, irqs), tail, [], req.id);
    assert [req.buffer] + tail == Strides(req.buffer, |irqs|);
  }

  /** A whole write: the dispatcher writes the task file for the request's
      address, issues WIN_WRITE and pushes the first sector; `n` good
      interrupts later the `n` sectors of the buffer have gone out in order
      and the request ended well. */
  lemma {:induction false} WriteRequest(s: Session, irqs: seq<Irq>, hw: nat -> Probe)
    requires Ready(s) && |s.queue| == 1 && s.queue[0].op.Write?
    requires s.queue[0].nrSectors == |irqs| >= 1 && AllGood(irqs)
    requires hw(0).ready && hw(0).drq
    ensures var o, req, t := Dispatch(s, hw, 0), s.queue[0], Locate(s.reg, s.queue[0]);
      && t.Target? && t.chs.head <= 15
      && o.Run? && o.s == s.(handler := OnWrite) && |o.events| == 5
      && o.events[2] == TaskFileFor(s.reg.info[t.drive], t.drive, req.nrSectors, t.chs.sec, t.chs.head, t.chs.cyl)
      && o.events[3] == Cmd(WIN_WRITE) && o.events[4] == DataOut(req.buffer)
      && Served(Prepend(o.events, Interrupts(o.s, irqs)), [WIN_WRITE], Strides(req.buffer, |irqs|), [], req.id)
  {
    WriteDispatched(s, hw);
    WriteServed(Dispatch(s, hw, 0), irqs, s.queue[0]);
  }

  /** The dispatch of a read followed by its burst of good interrupts. */
  lemma {:induction false} ReadServed(o: Out, irqs: seq<Irq>, req: Request)
    requires o.Run? && InFlight(o.s, OnRead, |irqs|) && |irqs| >= 1 && AllGood(irqs)
    requires o.s.queue[0] == req
    requires (Commands(o.events), Pushed(o.events), Pulled(o.events)) == ([WIN_READ], [], [])
    ensures Served(Prepend(o.events, Interrupts(o.s, irqs)), [WIN_READ], [], Strides(req.buffer, |irqs|), req.id)
  {
    ReadBurst(o.s, irqs);
    var all := Strides(req.buffer, |irqs|);
    PrependFinished(o.events, Interrupts(o.s, irqs), [], all, req.id);
    var none: seq<nat> := [];
    assert none + none == none && none + all == all;
  }

  /** A whole read: the dispatcher writes the task file for the CHS
      address of the request and WIN_READ; `n` good interrupts later the
      `n` sectors have come in, in order, and the request ended well. */
  lemma {:induction false} ReadRequest(s: Session, irqs: seq<Irq>, hw: nat -> Probe)
    requires Ready(s) && |s.queue| == 1 && s.queue[0].op.Read?
    requires s.queue[0].nrSectors == |irqs| >= 1 && AllGood(irqs)
    requires hw(0).ready
    ensures var o, req, t := Dispatch(s, hw, 0), s.queue[0], Locate(s.reg, s.queue[0]);
      && t.Target? && t.chs.head <= 15
      && o.Run? && o.s == s.(handler := OnRead) && |o.events| == 4
      && o.events[2] == TaskFileFor(s.reg.info[t.drive], t.drive, req.nrSectors, t.chs.sec, t.chs.head, t.chs.cyl)
      && Served(Prepend(o.events, Interrupts(o.s, irqs)), [WIN_READ], [], Strides(req.buffer, |irqs|), req.id)
  {
    ReadDispatched(s, hw);
    ReadServed(Dispatch(s, hw, 0), irqs, s.queue[0]);
  }

  // ---------------------------------------------------------------------
  // Start-up: reset, recalibration, transfer

  /** A good interrupt for SPECIFY or RESTORE runs recal_intr, which hands
      straight back to the dispatcher with `do_hd` cleared. */
  lemma {:induction false} RecalResumes(s: Session, status: bv8, hw: nat -> Probe)
    requires s.reg.Valid() && s.handler == OnRecal && WinResult(status).ok
    ensures Interrupt(s, status, hw) == Dispatch(s.(handler := Unarmed), hw, 0)
  {
    HandleRoutes(s, status, hw(0).stray);
    var o := Dispatch(s.(handler := Unarmed), hw, 0);
    assert [] + o.events == o.events;
  }

  /** The first request after boot: with the flags `Boot` sets, the
      dispatcher resets the controller and issues only SPECIFY, armed with
      recal_intr, leaving the recalibration pending. */
  lemma {:induction false} BootSpecifies(reg: Registry, q: seq<Request>, hw: nat -> Probe)
    requires reg.Valid() && reg.Sane() && q != [] && Accepted(reg, q[0]) && hw(0).ready
    ensures var s := Boot(reg).(queue := q);
      var o := Dispatch(s, hw, 0);
      && o.Run? && o.s == s.(reset := false, handler := OnRecal) && o.s.recalibrate
      && o.events[0] == Ctl(CTL_RESET) && Commands(o.events) == [WIN_SPECIFY]
  {
    var s := Boot(reg).(queue := q);
    var t := Locate(reg, q[0]);
    assert q[0].minor / SLOTS < reg.nrHd;
    assert t.Target? && Pass(s, hw(0)) == Issue(s, t, hw(0));
    var pr := Issue(s, t, hw(0));
    assert pr.Stop? && Dispatch(s, hw, 0) == pr.out;
  }

  /** SPECIFY done: the interrupt runs recal_intr and the dispatcher, with
      the recalibration still pending, issues only RESTORE, armed again
      with recal_intr. */
  lemma {:induction false} RestoreAfterSpecify(s: Session, status: bv8, hw: nat -> Probe)
    requires s.reg.Valid() && s.reg.Sane() && !s.reset && s.recalibrate && s.handler == OnRecal
    requires s.queue != [] && Accepted(s.reg, s.queue[0]) && WinResult(status).ok && hw(0).ready
    ensures var o := Interrupt(s, status, hw);
      && o.Run? && o.s == s.(recalibrate := false) && Commands(o.events) == [WIN_RESTORE]
  {
    RecalResumes(s, status, hw);
    var s0 := s.(handler := Unarmed);
    var t := Locate(s.reg, s.queue[0]);
    assert s.queue[0].minor / SLOTS < s.reg.nrHd;
    assert t.Target? && Pass(s0, hw(0)) == Issue(s0, t, hw(0));
    var pr := Issue(s0, t, hw(0));
    assert pr.Stop? && Dispatch(s0, hw, 0) == pr.out;
  }

  /** RESTORE done: the interrupt runs recal_intr, and the dispatcher, with
      no flag pending, goes on to the transfer of the head request. */
  lemma {:induction false} TransferAfterRestore(s: Session, status: bv8, hw: nat -> Probe)
    requires s.reg.Valid() && s.reg.Sane() && !s.reset && !s.recalibrate && s.handler == OnRecal
    requires s.queue != [] && Accepted(s.reg, s.queue[0]) && WinResult(status).ok
    ensures Ready(s.(handler := Unarmed))
    ensures Interrupt(s, status, hw) == Dispatch(s.(handler := Unarmed), hw, 0)
  {
    RecalResumes(s, status, hw);
  }
}

=== FILE: words.dfy ===
/** Machine words of the i386 kernel: bytes, 16- and 32-bit unsigned values,
    the reduction a 32-bit register applies to a result, and little-endian
    field extraction from byte images. */
module Words {

  const TWO32: int := 0x1_0000_0000

  type byte = x: int | 0 <= x < 0x100
  type u16 = x: int | 0 <= x < 0x1_0000
  /** `unsigned int` / `unsigned long` of the 32-bit kernel. */
  type u32 = x: int | 0 <= x < 0x1_0000_0000

  datatype Option<+T> = None | Some(value: T)

  /** What a 32-bit register keeps of the mathematical result `x`. */
  function Wrap(x: int): (r: u32)
    ensures 0 <= x < TWO32 ==> r == x
    ensures (x - r) % TWO32 == 0
  {
    x % TWO32
  }

  /** `x - 1` in 32-bit unsigned arithmetic: zero wraps to the largest word. */
  function Dec(x: u32): (r: u32)
    ensures x >= 1 ==> r == x - 1
    ensures x == 0 ==> r == TWO32 - 1
    ensures r == 0 <==> x == 1
  {
    if x == 0 then TWO32 - 1 else x - 1
  }

  /** `x + 1` in 32-bit unsigned arithmetic: the largest word wraps to zero. */
  function Inc(x: u32): (r: u32)
    ensures x < TWO32 - 1 ==> r == x + 1
    ensures x == TWO32 - 1 ==> r == 0
  {
    Wrap(x + 1)
  }

  /** The byte an `outb` puts on the bus for the value `x`. */
  function Lo8(x: nat): (r: byte)
    ensures x < 0x100 ==> r == x
  {
    x % 0x100
  }

  /** `*(unsigned short *)(b + at)` on a little-endian machine. */
  function Le16(b: seq<byte>, at: nat): u16
    requires at + 2 <= |b|
  {
    b[at] as int + 0x100 * b[at + 1] as int
  }

  /** `*(unsigned int *)(b + at)` on a little-endian machine. */
  function Le32(b: seq<byte>, at: nat): u32
    requires at + 4 <= |b|
  {
    Le16(b, at) + 0x1_0000 * Le16(b, at + 2)
  }
}
